=== FILE: README.md ===
# thinktool arithmetic drill, modelled in Dafny

thinktool is a web page that drills mental arithmetic. It shows a question such as `47 + 82?`. When the user
presses Enter in the answer box, the answer is graded and a new question appears. A command line at the
bottom configures the drill:

- `op` picks the operator;
- `tl` sets the digit length of each term;
- `tc` sets the number of terms;
- `cd` sets the trial duration;
- `start`/`stop` run a timed trial that counts questions and correct answers;
- `help` opens the help window.

While a command is typed, completions are suggested. All of this lives in one closure in
`scripts/questions.js`.

The model has the following modules:

- `JsText` — the JavaScript string primitives the script relies on, with their edge cases:
  - `trim` and `toLowerCase`;
  - `split(' ')`, which yields empty pieces for double spaces;
  - `join`;
  - `parseInt`, which skips leading whitespace, reads an optional sign and a `0x` prefix, and stops at the first non-digit;
  - `String(n)` for a non-negative integer.
- `Questions` — the question engine:
  - operator names and symbols;
  - `generateRandomNumber` given the value Math.random returned;
  - the operands of a question and the question text;
  - `calculateCorrectAnswer` as a strict left fold over exact numbers;
  - the 0.001 grading tolerance.
- `Commands` — the command registry and the argument checks of each handler. It also holds every refusal and confirmation text a handler returns, except the trial reports, which are in `Session`, and the display's rule that a result is an error when its lower-cased text starts with `error:`.
- `Session` — the whole closure state as one value, and every transition as a function:
  - generating a question;
  - the grading and counting step of `refreshQuestion`;
  - `startTrial`/`stopTrial`;
  - one run of the trial timer;
  - the page-load refresh;
  - the seven handlers;
  - `executeCommand`.
- `SessionFacts` — what each command promises:
  - when it succeeds, exactly what changes;
  - when it refuses, an `error:` text and no change at all.

  It also holds the counting facts of a trial, including those that the re-entrant `refreshQuestion` →
  `startTrial` → `refreshQuestion` chain produces.
- `Suggestions` — `getSuggestions`:
  - registry keys that the lower-cased input begins come first;
  - then `op <operator>` completions;
  - at most five in all.
- `DrillPage` — the page as an object updated in place. Class `Drill` holds the closure variables, and class `TrialRecord` is the `currentTrial` record. Each method performs the script's steps in the script's order: loops stay loops and records are mutated in place.
  - The handlers `Op` … `Stop` are proved to perform `OpCommand` … `StopCommand`.
  - `RunCommand` and `ExecuteCommand` perform `Dispatch` and `Execute`.
  - `RefreshQuestion` performs `Refresh`; `StartTrial`, `StopTrial` and `Tick` perform the `Session` functions of the same names.
  - `GradeAnswer` performs `Graded`, and `ShowNextQuestion` performs `Generate` and clears the answer box.
  - The constructor performs `Load`.
  - The inner steps have contracts of their own, with no `Session` counterpart:
    - `GenerateRandomNumber` returns `RandomTerm`;
    - `QuestionText` returns `Render`;
    - `CalculateCorrectAnswer` returns `CorrectAnswer`;
    - `PadTermLengths` gives the padded lengths;
    - `TypeAnswer` changes only the answer box.

  So every fact of `SessionFacts` holds of the object.

Math.random is the parameter `random: nat -> real`, whose values lie in [0,1). Its n-th result is `random(n)`, and the
object counts the results used in `drawn`. Date.now is the parameter `now`. The answer box is read as
`parseFloat` would: `Some(x)` for a finite number, `None` for NaN or an infinity.

Some behaviours of the code are easy to miss; the model keeps them as written:

- **`start` counts the question already on display.** `startTrial` calls `refreshQuestion`, which grades the answer
  box against the question on display and counts it. So with the answer box empty (or holding a wrong answer),
  `start` followed by `stop` reports `0/1 correct (0%)` rather than an empty trial (`SessionFacts.StartThenStop`,
  which assumes the box is empty). With the right answer in the box, it reports 1/1.
- **With no trial running, a refresh starts one and counts the same answer twice.** The first count is inside the refresh that
  `startTrial` performs, and the second is against the question that refresh just drew
  (`SessionFacts.AutoStartCountsTwice`). The refresh at page load therefore leaves a running trial
  that has already counted one wrong answer (`SessionFacts.LoadStartsTrial`).
- **A command line is split on single spaces, not on runs of whitespace.** `"op  division"` has an empty first
  argument and is refused.
- **Key completion compares registry keys with the whole lower-cased input, untrimmed.** With a trailing space, no key matches.

## Model

| member | source | states |
|---|---|---|
| JsText.TrimStart | scripts/questions.js:268 | drops exactly the leading whitespace: the result is a suffix, everything cut is whitespace, and the result starts with non-whitespace |
| JsText.Trim | scripts/questions.js:268 | trim is trimEnd after trimStart; TrimEmptyIffBlank states when it is empty, LowerWordIsTrimmed that a plain word is kept |
| JsText.TrimEnd | scripts/questions.js:268 | drops exactly the trailing whitespace |
| JsText.TrimEmptyIffBlank | scripts/questions.js:444-445 | a line trims to the empty string exactly when every character is whitespace |
| JsText.ToLower | scripts/questions.js:269 | same length, every character lower-cased, upper-case ASCII letters eliminated |
| JsText.LowerChar | scripts/questions.js:269 | an upper-case ASCII letter becomes the letter 32 code points later (its lower-case form); every other character is kept; no upper-case ASCII letter is left |
| JsText.LowerWordIsTrimmed | scripts/questions.js:268 | a word of letters a-z is unchanged by trim |
| JsText.LowerWordIsLowerCase | scripts/questions.js:269 | a word of letters a-z is unchanged by toLowerCase |
| JsText.Join | scripts/questions.js:25 | join with a separator; JoinOfSplit and SplitOfJoin state that it inverts split(' ') |
| JsText.Split | scripts/questions.js:268 | split(' ') yields at least one piece and no piece contains a space |
| JsText.JoinOfSplit | scripts/questions.js:268 | joining the pieces with " " gives the line back |
| JsText.SplitWithoutSpace | scripts/questions.js:268 | a string without a space is one piece |
| JsText.SplitAtSpace | scripts/questions.js:268 | splitting at a space splits the two sides independently |
| JsText.SplitExtendsLast | scripts/questions.js:360 | appending space-free text (the "?") only extends the last piece |
| JsText.SplitOfJoin | scripts/questions.js:268-270 | splitting a " "-join of space-free words gives the words back |
| JsText.ParseInt | scripts/questions.js:47 | parseInt without a radix; ParseIntAfterTrimStart, ParseIntOfDecimal and ParseIntReadsLeadingNumber state what it reads |
| JsText.DigitRun | scripts/questions.js:47 | the longest prefix of digits of the radix |
| JsText.ParseIntAfterTrimStart | scripts/questions.js:47 | parseInt reads the number at the start of the string after leading whitespace |
| JsText.ParseIntOfDecimal | scripts/questions.js:68 | on text starting with a decimal digit and not "0x", parseInt is the value of the leading digit run |
| JsText.ParseIntReadsLeadingNumber | scripts/questions.js:47 | parseInt reads a written number back whatever non-digit text follows it, except "0x…" |
| JsText.NatToString | scripts/questions.js:358 | the decimal rendering is non-empty and all digits |
| JsText.ValueOfNatToString | scripts/questions.js:358 | the rendered digits read back give the number |
| JsText.NatToStringLength | scripts/questions.js:337-339 | a number in [10^(d-1), 10^d) has exactly d digits |
| JsText.JoinNats | scripts/questions.js:57 | the numbers joined by a separator; JoinNatsExtend states it grows one number at a time, and SplitJoinedOperands that it splits back |
| JsText.JoinNatsExtend | scripts/questions.js:354-358 | the text grows by separator (except before the first) and the next number |
| Questions.Symbol | scripts/questions.js:5-10 | each operator's symbol is one character without a space |
| Questions.Scale | scripts/questions.js:335 | Math.floor(r * k) for a Math.random value r is below k |
| Questions.RandomTerm | scripts/questions.js:333-340 | a term for digit length d lies in [10^(d-1), 10^d); for d = 1 that is 1..9, never 0 |
| Questions.RandomTermHasDigits | scripts/questions.js:333-340 | a term for digit length d is written with exactly d digits |
| Questions.RandomTermReachesEvery | scripts/questions.js:333-340 | every value of the range comes from some Math.random value |
| Questions.Terms | scripts/questions.js:348-351 | one operand per configured length, operand i with lengths[i] digits |
| Questions.Render | scripts/questions.js:353-360 | the question text; QuestionTokens and QuestionTextDecodes state that it decodes back to the operands and symbol |
| Questions.SplitJoinedOperands | scripts/questions.js:353-359 | split on spaces, the joined operands alternate operand and symbol |
| Questions.AlternatingTokensExtend | scripts/questions.js:355-358 | appending the symbol and the next operand keeps the tokens alternating |
| Questions.QuestionTokens | scripts/questions.js:353-360 | the question's tokens: operands at even places, the symbol at odd places, "?" on the last operand |
| Questions.OperandToken | scripts/questions.js:353-360 | parseInt of token 2i is operand i |
| Questions.QuestionTextDecodes | scripts/questions.js:342-362 | the question text decodes back to its operands and symbol |
| Questions.Step | scripts/questions.js:371-384 | one step of the running result per mode; a non-finite value stays non-finite |
| Questions.Fold | scripts/questions.js:369-385 | the left fold of the operands; ThreeOperandsLeftToRight states its order |
| Questions.CorrectAnswer | scripts/questions.js:366-387 | 0 without operands, else the left fold; AdditionIsSum through DivisionIsQuotient state its value per mode |
| Questions.ThreeOperandsLeftToRight | scripts/questions.js:369-385 | [a,b,c] is computed as (a op b) op c |
| Questions.AdditionIsSum | scripts/questions.js:372-374 | under addition the answer is the sum of the operands, 0 for none |
| Questions.SubtractionIsFirstMinusRest | scripts/questions.js:375-377 | under subtraction the answer is the first operand minus the sum of the others |
| Questions.MultiplicationIsProduct | scripts/questions.js:378-380 | under multiplication the answer is the product |
| Questions.DivisionNonFiniteIffZeroDivisor | scripts/questions.js:381-383 | under division the answer is non-finite exactly when a divisor is 0 |
| Questions.DivisionIsQuotient | scripts/questions.js:381-383 | with no zero divisor, the answer is the first operand over the product of the others |
| Questions.Grade | scripts/questions.js:398 | an answer passes only when it and the correct value are finite |
| Questions.GradeBoundary | scripts/questions.js:398 | on exact values, the tolerance is strict and two-sided: 10.0009 and 9.9991 pass for 10, 10.002 and 9.998 do not, a missing answer (NaN) never does |
| Commands.Lookup | scripts/questions.js:272 | commands[name] finds a command exactly for its registry key, and nothing outside the seven keys of `Names` (Object.keys(commands), in declaration order) |
| Commands.ValidArgs | scripts/questions.js:22 | validArgs: the four operator names for `op`, none for any other command; ArgMatchesOnlyForOp states what getSuggestions does with it |
| Commands.ParseOperator | scripts/questions.js:27-28 | an operator is accepted exactly for the four validArgs names, and its name is echoed back |
| Commands.IntInRange | scripts/questions.js:68-69 | accepted exactly when parseInt gives a number in [lo,hi], and then that number |
| Commands.ParseTermLengths | scripts/questions.js:45-52 | defined exactly when every argument is a length in [1,5]; then the lengths in argument order |
| Commands.ParseTermLengthsPointwise | scripts/questions.js:45-52 | parsing the arguments one by one gives the same lengths |
| Commands.LengthsSoFarExtend | scripts/questions.js:51 | pushing the next parsed length keeps the parsed prefix |
| Commands.Resize | scripts/questions.js:75-78 | n lengths: the old ones up to n, 2 for every new position |
| Commands.PaddedPrefixIsResize | scripts/questions.js:75-78 | padding with 2s then slicing to n is Resize |
| Commands.IsError | scripts/questions.js:447 | the display's test; Refusal, UnknownCommandMessage and the confirmation messages state which texts pass it |
| Commands.Refusal | scripts/questions.js:24-25 | every refusal text is classified as an error |
| Commands.NotAnError | scripts/questions.js:447 | a text whose first letter is not "e" is never classified as an error |
| Commands.HelpMessage | scripts/questions.js:130 | help's answer is a confirmation, not an error |
| Commands.UnknownCommandMessage | scripts/questions.js:275 | the unknown-command text, with its capital "Error:", is classified as an error |
| Commands.ModeChangedMessage | scripts/questions.js:31 | op's confirmation is not an error |
| Commands.TermLengthsSetMessage | scripts/questions.js:57 | tl's confirmation is not an error |
| Commands.TermCountSetMessage | scripts/questions.js:81 | tc's confirmation is not an error |
| Commands.DurationSetMessage | scripts/questions.js:98 | cd's confirmation begins `trial duration set to ` and is not an error |
| Commands.TrialStartedMessage | scripts/questions.js:110 | start's confirmation begins `trial started for ` and is not an error |
| Session.InitialInv | scripts/questions.js:11-16 | the declared initial values satisfy the invariant |
| Session.PlaceholderIsRendered | scripts/questions.js:343-346 | the placeholder "0 s 0?" is the rendering of [0, 0] |
| Session.Generate | scripts/questions.js:342-363 | the text shows the new operands: [0,0] on the first call, otherwise termCount operands of the configured lengths; draws one random value per term; nothing else changes |
| Session.GenerateFields | scripts/questions.js:342-363 | Generate field by field: operands, text and draws |
| Session.IsCorrect | scripts/questions.js:397-398 | graded against the operands on display; GradedQuestionCountsOnce states how it is counted |
| Session.FreshTrial | scripts/questions.js:136-142 | the record startTrial creates; StartContract states its start and end times |
| Session.Count | scripts/questions.js:401-404 | one more question, and one more correct answer exactly when graded correct |
| Session.Graded | scripts/questions.js:394-407 | with operands on display and a trial running, exactly one question is counted; otherwise nothing changes; correct never exceeds total |
| Session.Advance | scripts/questions.js:394-430 | after grading, a new question is shown matching its operands, the answer box is cleared, configuration unchanged |
| Session.Refresh | scripts/questions.js:389-430 | afterwards a trial always runs and the invariant holds; a running trial counts one question when operands were on display; with none, a fresh trial is created and counts one or two questions |
| Session.StartTrial | scripts/questions.js:135-159 | a trial from now to now + duration·1000 ms, which has counted the on-screen question if any |
| Session.Accuracy | scripts/questions.js:168 | correct / total in [0,1], and 0 for an empty trial |
| Session.StopTrial | scripts/questions.js:161-174 | the trial is discarded and its counts returned; null without a trial |
| Session.Percent | scripts/questions.js:122 | Math.round(accuracy·100): within half a unit, halves rounded up |
| Session.PercentInRange | scripts/questions.js:122 | the reported percentage lies in 0..100 |
| Session.Summary | scripts/questions.js:122 | "c/t correct (p%)"; OneWrongAnswerSummary states it on one wrong answer |
| Session.IntToString | scripts/questions.js:122 | the template's rendering of the rounded percentage, which PercentInRange bounds to 0..100; OneWrongAnswerSummary shows "0" |
| Session.StoppedMessage | scripts/questions.js:122 | the stop report begins `trial stopped. ` and is not classified as an error |
| Session.CompletedMessage | scripts/questions.js:150 | the completion report begins `trial complete! ` and is not classified as an error |
| Session.OneWrongAnswerSummary | scripts/questions.js:122 | one question, none correct, is summarised as "0/1 correct (0%)" |
| Session.OneWrongAnswerStopped | scripts/questions.js:122 | and stop reports it as "trial stopped. 0/1 correct (0%)" |
| Session.SecondsLeft | scripts/questions.js:152 | Math.ceil(ms / 1000): the least whole number of seconds covering ms |
| Session.Tick | scripts/questions.js:145-155 | at or after the end time the trial is stopped and the completion text reports its counts and accuracy; before it only timeLeft changes, to the seconds left rounded up |
| Session.Load | scripts/questions.js:468 | the page-load refresh yields a state satisfying the invariant |
| Session.OpCommand | scripts/questions.js:19-36 | op keeps the invariant |
| Session.TlCommand | scripts/questions.js:37-59 | tl keeps the invariant |
| Session.TcCommand | scripts/questions.js:60-83 | tc keeps the invariant |
| Session.CdCommand | scripts/questions.js:84-100 | cd keeps the invariant |
| Session.StartCommand | scripts/questions.js:101-112 | start keeps the invariant |
| Session.StopCommand | scripts/questions.js:113-124 | stop keeps the invariant |
| Session.Dispatch | scripts/questions.js:272-273 | running any registered handler keeps the invariant |
| Session.ParseLine | scripts/questions.js:268-270 | the lower-cased first piece and the rest; ParseLineOfWords and ParsePlainWord state what it reads |
| Session.ParseLineOfWords | scripts/questions.js:267-270 | a line of single-space-separated words is read as the lower-cased first word and the other words |
| Session.ParsePlainWord | scripts/questions.js:267-270 | a single lower-case word is read as that command name with no arguments |
| Session.Execute | scripts/questions.js:267-277 | executing any line keeps the invariant |
| SessionFacts.OpContract | scripts/questions.js:19-36 | op succeeds exactly for a valid operator name; then mode is that operator, a new question in it is shown, the other settings kept; otherwise an error and no change |
| SessionFacts.TlContract | scripts/questions.js:37-59 | tl succeeds exactly when every one of at least one argument parses to [1,5]; then termLengths are those values and termCount their number; otherwise an error and no change |
| SessionFacts.TcContract | scripts/questions.js:60-83 | tc succeeds exactly for an integer in [2,10]; then n lengths, the old ones kept and new ones 2; otherwise an error and no change |
| SessionFacts.CdContract | scripts/questions.js:84-100 | cd succeeds exactly for an integer in [10,3600] and then changes the duration only; otherwise an error and no change |
| SessionFacts.StartContract | scripts/questions.js:101-112 | start is an error exactly while a trial runs (no change); otherwise a trial from now to now + duration runs |
| SessionFacts.StopContract | scripts/questions.js:113-124 | stop is an error exactly without a trial (no change); otherwise the trial is discarded and its counts reported, accuracy 0 for no questions |
| SessionFacts.StopRefusedWithoutTrial | scripts/questions.js:117-118 | without a trial stop answers the refusal and changes nothing |
| SessionFacts.StopReportsTrial | scripts/questions.js:121-122 | with a trial stop discards it and reports its counts |
| SessionFacts.UnknownCommandContract | scripts/questions.js:272-276 | an unregistered name gives the unknown-command error and no change |
| SessionFacts.ErrorsChangeNothing | scripts/questions.js:267-277 | whatever line is executed, an error result comes with the state unchanged |
| SessionFacts.GradedQuestionCountsOnce | scripts/questions.js:394-407 | a refresh during a trial counts exactly one question, and one correct answer exactly when the answer passes |
| SessionFacts.AutoStartCountsTwice | scripts/questions.js:389-407 | a refresh with no trial counts the same answer twice, against the old and the new operands |
| SessionFacts.LoadStartsTrial | scripts/questions.js:468 | after page load a 60-second trial runs with one question counted wrong, showing two 2-digit addition operands |
| SessionFacts.ExecutePlainWord | scripts/questions.js:267-273 | a one-word command line reaches that command's handler with no arguments |
| SessionFacts.StopAfterOneWrongAnswer | scripts/questions.js:113-124 | stopping a trial with one wrong answer reports 0/1 |
| SessionFacts.StartCountsOneWrongAnswer | scripts/questions.js:101-112 | start with an empty answer box and operands shown has counted one wrong answer |
| SessionFacts.StartThenStop | scripts/questions.js:101-124 | start then stop reports "trial stopped. 0/1 correct (0%)" |
| SessionFacts.DisplayedQuestionDecodes | scripts/questions.js:427 | the displayed text always decodes to the operands the next answer is graded against |
| Suggestions.StartingWith | scripts/questions.js:238-242 | exactly the words that start with the prefix |
| Suggestions.StartingWithKeepsOrder | scripts/questions.js:238-242 | the matches keep their registry order |
| Suggestions.KeyMatches | scripts/questions.js:238-242 | the keys of `Names` (Object.keys(commands)) that the lower-cased input begins; KeysComeFirst states their order and membership |
| Suggestions.ArgMatches | scripts/questions.js:244-256 | at most as many argument completions as operator names |
| Suggestions.Prefixed | scripts/questions.js:252 | each completion is "cmd " followed by the argument |
| Suggestions.Truncate | scripts/questions.js:258 | slice(0, 5): the first min(n, 5) entries |
| Suggestions.GetSuggestions | scripts/questions.js:232-259 | at most five suggestions, none for blank input |
| Suggestions.TruncatedConcat | scripts/questions.js:258 | truncating keys then arguments keeps the keys first |
| Suggestions.KeysComeFirst | scripts/questions.js:235-242 | the list starts with exactly the keys the lower-cased input begins, in registry order |
| Suggestions.ArgMatchesOnlyForOp | scripts/questions.js:244-256 | both directions: argument completions exist only for op, and for an input whose first piece lower-cases to "op" they are exactly "op " plus each operator name the lower-cased second piece begins, in order |
| Suggestions.ArgumentsComeAfter | scripts/questions.js:244-258 | argument completions fill the places after the keys, in order, up to five in all |
| Suggestions.KeysForS | scripts/questions.js:238-242 | "s" matches the keys start and stop |
| Suggestions.SuggestionsForWord | scripts/questions.js:244-245 | a single lower-case word gets key completions only |
| Suggestions.StartAndStopForS | scripts/questions.js:232-259 | typing "s" suggests ["start", "stop"] |
| Suggestions.SIsPlainWord | scripts/questions.js:233 | "s" is a non-blank single lower-case word |
| Suggestions.NoKeyStartsWithOpD | scripts/questions.js:238-242 | no key starts with "op d" |
| Suggestions.OpDSplits | scripts/questions.js:244 | "op d" splits into "op" and "d" |
| Suggestions.DivisionForD | scripts/questions.js:250-251 | of the operator names only "division" starts with "d" |
| Suggestions.OpDArguments | scripts/questions.js:244-256 | "op d" completes to "op division" |
| DrillPage.TrialRecord.constructor | scripts/questions.js:136-142 | a fresh record with zeroed counters ending duration seconds from now |
| DrillPage.TrialRecord.CountQuestion | scripts/questions.js:401-404 | the record counts one question, and one correct answer when it was right |
| DrillPage.CollectTermLengths | scripts/questions.js:45-52 | the loop yields exactly ParseTermLengths of the arguments |
| DrillPage.Drill.constructor | scripts/questions.js:11-16 | the declared values followed by the page-load refresh give Session.Load |
| DrillPage.Drill.TypeAnswer | scripts/questions.js:390 | typing changes the answer box only |
| DrillPage.Drill.GenerateRandomNumber | scripts/questions.js:333-340 | uses the next Math.random value and returns a term of digitLength digits |
| DrillPage.Drill.GenerateQuestionData | scripts/questions.js:342-363 | the placeholder on the first call, otherwise Terms of the configured lengths; the returned text renders lastNumbers |
| DrillPage.Drill.QuestionText | scripts/questions.js:353-360 | the text loop produces the rendering of the operands |
| DrillPage.Drill.CalculateCorrectAnswer | scripts/questions.js:366-387 | the loop computes the left fold CorrectAnswer |
| DrillPage.Drill.RefreshQuestion | scripts/questions.js:389-430 | performs Session.Refresh in place, keeps the invariant, a trial always runs afterwards |
| DrillPage.Drill.GradeAnswer | scripts/questions.js:394-407 | grades as IsCorrect and counts as Session.Graded |
| DrillPage.Drill.ShowNextQuestion | scripts/questions.js:409-429 | shows the question Session.Generate gives and clears the answer box |
| DrillPage.Drill.StartTrial | scripts/questions.js:135-159 | performs Session.StartTrial in place with a fresh record |
| DrillPage.Drill.StopTrial | scripts/questions.js:161-174 | performs Session.StopTrial in place |
| DrillPage.Drill.Tick | scripts/questions.js:146-154 | performs Session.Tick in place |
| DrillPage.Drill.Op | scripts/questions.js:23-35 | performs Session.OpCommand in place |
| DrillPage.Drill.Tl | scripts/questions.js:40-58 | performs Session.TlCommand in place |
| DrillPage.Drill.Tc | scripts/questions.js:63-82 | performs Session.TcCommand in place |
| DrillPage.Drill.PadTermLengths | scripts/questions.js:75-77 | pushes 2 until there is one length per term and no further, keeping the old lengths: the new length is the larger of the old length and termCount |
| DrillPage.Drill.Cd | scripts/questions.js:87-99 | performs Session.CdCommand in place |
| DrillPage.Drill.Start | scripts/questions.js:104-111 | performs Session.StartCommand in place |
| DrillPage.Drill.Stop | scripts/questions.js:116-123 | performs Session.StopCommand in place |
| DrillPage.Drill.RunCommand | scripts/questions.js:273 | runs the registered handler as Session.Dispatch |
| DrillPage.Drill.ExecuteCommand | scripts/questions.js:267-277 | performs Session.Execute in place |
| DrillPage.Drill.EnterCommand | scripts/questions.js:442-451 | a blank line is ignored; otherwise the line runs, an error result is displayed as an error with no state change, and a success displays the command |

## Left out

- The DOM. This covers:
  - the question area's element;
  - the fading copies of old questions and command results;
  - the colours;
  - focus;
  - the suggestion box's elements (`showSuggestions`, `hideSuggestions`, `createSuggestionBox`);
  - `updateTrialDisplay`.

  They only display state the model holds.
- The help window's contents (`showHelpWindow`). `help` is modelled as returning its text and changing no state.
- `setInterval`/`clearInterval`. `Tick` is one run of the timer callback; the scheduling itself is not modelled. Nor is the fact that a callback can no longer run once its trial is stopped.
- Date.now. Within one event, every reading of Date.now is taken to return the same `now`.
- Floating point. Operands, running results and the accuracy are exact rationals, not IEEE doubles, so rounding in division and accumulated error are not modelled. Division by zero gives the non-finite value `None`, which stays non-finite, and NaN is `None` for parseFloat.
- parseFloat of the answer box is not modelled as a string parser. The answer box holds the number parseFloat would read.
- Non-ASCII letters in `toLowerCase`. Only A–Z are lower-cased.
- Inherited property names in `commands[cmdName]`, such as `constructor` or `toString`. The model treats the registry as holding exactly its seven keys.
- Precision loss of `parseInt` beyond 2^53. Integers are unbounded.
- The initial text of the question area comes from the page's HTML. The model uses the "website loaded" text that `refreshQuestion` tests for.
- Questions.GradeBoundary: grades exact reals, not doubles. An answer within one ulp of the 0.001 boundary, such as 10.001 for 10, is accepted by the program because parseFloat reads it as slightly less than 10.001; under the exact reading it would be rejected, so the lemma makes no claim at that boundary.
- Questions.Grade: states only that a passing answer and correct value are finite. The exact tolerance test is shown on concrete values by `Questions.GradeBoundary`.

=== FILE: commands.dfy ===
/**
 * The command registry (the `commands` table of seven entries), the argument
 * checks each handler performs before it changes anything, the texts it
 * answers with, and the display's "error:" convention.
 */
module Commands {
  import opened Optional
  import opened JsText
  import opened Questions

  datatype Command = Op | Tl | Tc | Cd | Start | Stop | Help

  /** The key a command is registered under. */
  function Name(c: Command): string {
    match c
    case Op => "op"
    case Tl => "tl"
    case Tc => "tc"
    case Cd => "cd"
    case Start => "start"
    case Stop => "stop"
    case Help => "help"
  }

  /** The registry keys in declaration order, the order Object.keys lists them in. */
  const Names: seq<string> := ["op", "tl", "tc", "cd", "start", "stop", "help"]

  /** commands[name]: the command registered under exactly this key, if any. */
  function Lookup(name: string): (r: Option<Command>)
    ensures forall c: Command :: Name(c) == name <==> r == Some(c)
    ensures r.None? <==> name !in Names
  {
    if name == "op" then Some(Op)
    else if name == "tl" then Some(Tl)
    else if name == "tc" then Some(Tc)
    else if name == "cd" then Some(Cd)
    else if name == "start" then Some(Start)
    else if name == "stop" then Some(Stop)
    else if name == "help" then Some(Help)
    else None
  }

  /** The accepted first arguments of `op`, in declaration order. */
  const OperatorNames: seq<string> := ["addition", "subtraction", "multiplication", "division"]

  /** validArgs of a command: only `op` has a closed list. */
  function ValidArgs(c: Command): Option<seq<string>> {
    if c == Op then Some(OperatorNames) else None
  }

  /** The mode named by a lower-cased `op` argument, if it is one of validArgs. */
  function ParseOperator(word: string): (r: Option<Operator>)
    ensures r.Some? <==> word in OperatorNames
    ensures r.Some? ==> OperatorName(r.value) == word
  {
    if word == "addition" then Some(Addition)
    else if word == "subtraction" then Some(Subtraction)
    else if word == "multiplication" then Some(Multiplication)
    else if word == "division" then Some(Division)
    else None
  }

  /** The check `isNaN(v) || v < lo || v > hi` on v = parseInt(arg), as an accepted value. */
  function IntInRange(arg: string, lo: nat, hi: nat): (r: Option<nat>)
    ensures r.Some? <==> ParseInt(arg).Some? && lo <= ParseInt(arg).value <= hi
    ensures r.Some? ==> r.value == ParseInt(arg).value
  {
    match ParseInt(arg)
    case None => None
    case Some(v) => if v < lo || v > hi then None else Some(v)
  }

  /** A term length `tl` accepts. */
  function TermLength(arg: string): Option<nat> {
    IntInRange(arg, 1, 5)
  }

  /**
   * The lengths `tl` collects: defined exactly when every argument is a term
   * length, and then the parsed lengths in argument order.
   */
  function ParseTermLengths(args: seq<string>): (r: Option<seq<nat>>)
    ensures r.Some? <==> forall i :: 0 <= i < |args| ==> TermLength(args[i]).Some?
    ensures r.Some? ==>
      |r.value| == |args| && forall i :: 0 <= i < |args| ==> TermLength(args[i]) == Some(r.value[i])
  {
    if args == [] then Some([])
    else
      match TermLength(args[0])
      case None => None
      case Some(v) =>
        match ParseTermLengths(args[1..])
        case None => None
        case Some(rest) => Some([v] + rest)
  }

  /** Parsing argument by argument gives the same lengths. */
  lemma {:induction false} ParseTermLengthsPointwise(args: seq<string>, lengths: seq<nat>)
    requires |lengths| == |args|
    requires forall j :: 0 <= j < |args| ==> TermLength(args[j]) == Some(lengths[j])
    ensures ParseTermLengths(args) == Some(lengths)
  {
    if args != [] {
      assert TermLength(args[0]) == Some(lengths[0]);
      ParseTermLengthsPointwise(args[1..], lengths[1..]);
      assert lengths == [lengths[0]] + lengths[1..];
    }
  }

  /** The first |lengths| arguments are the term lengths `lengths`. */
  ghost predicate LengthsSoFar(args: seq<string>, lengths: seq<nat>) {
    |lengths| <= |args| && forall j :: 0 <= j < |lengths| ==> TermLength(args[j]) == Some(lengths[j])
  }

  lemma LengthsSoFarExtend(args: seq<string>, lengths: seq<nat>, v: nat)
    requires LengthsSoFar(args, lengths) && |lengths| < |args|
    requires TermLength(args[|lengths|]) == Some(v)
    ensures LengthsSoFar(args, lengths + [v])
  {
    var longer := lengths + [v];
    forall j | 0 <= j < |longer|
      ensures TermLength(args[j]) == Some(longer[j])
    {
      if j < |lengths| {
        assert longer[j] == lengths[j];
      }
    }
  }

  /**
   * termLengths after `tc n`: the old lengths up to n are kept and any new
   * position gets the default length 2.
   */
  function Resize(lengths: seq<nat>, n: nat): (r: seq<nat>)
    ensures |r| == n
    ensures forall i :: 0 <= i < n ==> r[i] == if i < |lengths| then lengths[i] else 2
  {
    if n <= |lengths| then lengths[..n] else lengths + seq(n - |lengths|, _ => 2)
  }

  /** Padding with 2s and then cutting to n gives Resize. */
  lemma PaddedPrefixIsResize(lengths: seq<nat>, padded: seq<nat>, n: nat)
    requires |lengths| <= |padded| && n <= |padded|
    requires padded[..|lengths|] == lengths
    requires forall j :: |lengths| <= j < |padded| ==> padded[j] == 2
    ensures padded[..n] == Resize(lengths, n)
  {
    assert forall j :: 0 <= j < |lengths| ==> padded[j] == lengths[j] by {
      forall j | 0 <= j < |lengths| ensures padded[j] == lengths[j] {
        assert padded[..|lengths|][j] == padded[j];
      }
    }
  }

  /** The display's test: a result is an error when its lower-cased text starts with "error:". */
  predicate IsError(result: string) {
    "error:" <= ToLower(result)
  }

  /** The tag refusal texts start with; the unknown-command text uses the capitalised form. */
  const ErrorTag := "error: "
  const CapitalErrorTag := "Error: "

  /** A refusal text: the tag, then the reason. */
  function Refusal(reason: string): (m: string)
    ensures IsError(m)
    ensures m == ErrorTag + reason
  {
    ErrorTag + reason
  }

  /** A confirmation text: the display reads it as a success unless it begins with an "e". */
  lemma NotAnError(m: string)
    requires |m| > 0 && LowerChar(m[0]) != 'e'
    ensures !IsError(m)
  {
  }

  const OpMissingMessage := Refusal("please specify a operator. valid operators: " + Join(OperatorNames, ", "))
  const OpInvalidMessage := Refusal("invalid operator. Valid operators: " + Join(OperatorNames, ", "))
  const TlMissingMessage := Refusal("please specify term lengths (e.g., tl 2 3 for 2-digit and 3-digit terms)")
  const TlInvalidMessage := Refusal("term lengths must be numbers between 1 and 5")
  const TcMissingMessage := Refusal("please specify a number of terms")
  const TcInvalidMessage := Refusal("term count must be a number between 2 and 10")
  const CdMissingMessage := Refusal("please specify a duration in seconds")
  const CdInvalidMessage := Refusal("duration must be a number between 10 and 3600 seconds")
  const StartRunningMessage := Refusal("trial already in progress. Use 'stop' to end current trial")
  const StopIdleMessage := Refusal("no trial in progress")

  /** The answer to `help`: the only handler whose text is a constant confirmation. */
  function HelpMessage(): (m: string)
    ensures !IsError(m)
  {
    var m := "help window opened";
    NotAnError(m);
    m
  }

  function UnknownCommandMessage(name: string): (m: string)
    ensures IsError(m)
  {
    CapitalErrorTag + "Unknown command '" + name + "'. Type 'help' for available commands."
  }

  function ModeChangedMessage(op: Operator): (m: string)
    ensures !IsError(m)
  {
    var m := "mode changed to " + OperatorName(op);
    NotAnError(m);
    m
  }

  function TermLengthsSetMessage(lengths: seq<nat>): (m: string)
    ensures !IsError(m)
  {
    var m := "term lengths set to: " + JoinNats(lengths, ", ");
    NotAnError(m);
    m
  }

  function TermCountSetMessage(n: nat): (m: string)
    ensures !IsError(m)
  {
    var m := "term count set to " + NatToString(n);
    NotAnError(m);
    m
  }

  function DurationSetMessage(seconds: nat): (m: string)
    ensures !IsError(m)
    ensures "trial duration set to " <= m
  {
    var m := "trial duration set to " + NatToString(seconds) + " seconds";
    NotAnError(m);
    m
  }

  function TrialStartedMessage(seconds: nat): (m: string)
    ensures !IsError(m)
    ensures "trial started for " <= m
  {
    var m := "trial started for " + NatToString(seconds) + " seconds";
    NotAnError(m);
    m
  }
}

=== FILE: drill.dfy ===
/**
 * The drill page's closure state as an object whose handlers update it in
 * place, in the order the script does.  Every method is specified by the
 * transition function of the Session module it performs, so the facts proved
 * there (SessionFacts) hold of this object too.
 */
module DrillPage {
  import opened Optional
  import opened JsText
  import opened Questions
  import opened Commands
  import opened Session
  import SessionFacts

  /** The currentTrial record; refreshQuestion and the timer update it in place. */
  class TrialRecord {
    var startTime: int
    var endTime: int
    var totalQuestions: nat
    var correctAnswers: nat
    var timeLeft: int

    function Value(): Trial
      reads this
    {
      Trial(startTime, endTime, totalQuestions, correctAnswers, timeLeft)
    }

    constructor (now: int, duration: nat)
      ensures Value() == FreshTrial(duration, now)
    {
      startTime := now;
      endTime := now + duration * 1000;
      totalQuestions := 0;
      correctAnswers := 0;
      timeLeft := duration;
    }

    /** totalQuestions++, and correctAnswers++ when the answer was right. */
    method CountQuestion(isCorrect: bool)
      modifies this
      ensures Value() == Count(old(Value()), isCorrect)
    {
      totalQuestions := totalQuestions + 1;
      if isCorrect {
        correctAnswers := correctAnswers + 1;
      }
    }
  }

  /**
   * The loop of `tl`: parseInt each argument in turn, giving up at the first
   * one that is not a number in [1,5].
   */
  method CollectTermLengths(args: seq<string>) returns (lengths: Option<seq<nat>>)
    ensures lengths == ParseTermLengths(args)
  {
    var newTermLengths: seq<nat> := [];
    var i := 0;
    while i < |args|
      invariant 0 <= i <= |args|
      invariant |newTermLengths| == i
      invariant LengthsSoFar(args, newTermLengths)
    {
      var length := ParseInt(args[i]);
      if length.None? || length.value < 1 || length.value > 5 {
        assert TermLength(args[i]).None?;
        return None;
      }
      assert TermLength(args[i]) == Some(length.value);
      LengthsSoFarExtend(args, newTermLengths, length.value);
      newTermLengths := newTermLengths + [length.value];
      i := i + 1;
    }
    ParseTermLengthsPointwise(args, newTermLengths);
    return Some(newTermLengths);
  }

  class Drill {
    /** Math.random: its n-th result is random(n). */
    const random: nat -> real
    /** How many results of Math.random have been used. */
    var drawn: nat

    var mode: Operator
    var lastNumbers: seq<nat>
    var question: string
    var answer: Option<real>
    var termCount: nat
    var termLengths: seq<nat>
    var trialDuration: nat
    var currentTrial: TrialRecord?

    /** The whole state as a value. */
    function Snapshot(): State
      reads this, currentTrial
    {
      State(mode, lastNumbers, question, answer, termCount, termLengths, trialDuration,
            if currentTrial == null then None else Some(currentTrial.Value()), drawn)
    }

    /** What a refresh needs: a random source and a consistent configuration. */
    ghost predicate Ready()
      reads this, currentTrial
    {
      IsRandomSource(random) && Configured(Snapshot())
    }

    ghost predicate Valid()
      reads this, currentTrial
    {
      IsRandomSource(random) && Inv(Snapshot())
    }

    /** The closure's initial values, then the refresh at page load. */
    constructor (random: nat -> real, now: int)
      requires IsRandomSource(random)
      ensures Valid() && Snapshot() == Load(random, now)
    {
      this.random := random;
      drawn := 0;
      mode := Addition;
      lastNumbers := [];
      question := LoadingText;
      answer := None;
      termCount := 2;
      termLengths := [2, 2];
      trialDuration := 60;
      currentTrial := null;
      new;
      InitialInv();
      RefreshQuestion(now);
    }

    /** Typing into the answer box. */
    method TypeAnswer(value: Option<real>)
      requires Valid()
      modifies this`answer
      ensures Valid() && Snapshot() == old(Snapshot()).(answer := value)
    {
      answer := value;
    }

    /** generateRandomNumber: one result of Math.random scaled to digitLength digits. */
    method GenerateRandomNumber(digitLength: nat) returns (n: nat)
      requires 1 <= digitLength && IsRandomSource(random)
      modifies this`drawn
      ensures n == RandomTerm(digitLength, random(old(drawn)))
      ensures Pow10(digitLength - 1) <= n < Pow10(digitLength)
      ensures drawn == old(drawn) + 1
    {
      n := RandomTerm(digitLength, random(drawn));
      drawn := drawn + 1;
    }

    /** generateQuestionData: new operands in lastNumbers, and the text to show. */
    method GenerateQuestionData() returns (text: string)
      requires IsRandomSource(random) && |termLengths| == termCount && LengthsInRange(termLengths)
      modifies this`lastNumbers, this`drawn
      ensures old(lastNumbers) == [] ==> lastNumbers == [0, 0] && drawn == old(drawn)
      ensures old(lastNumbers) != [] ==>
        lastNumbers == Terms(termLengths, random, old(drawn)) && drawn == old(drawn) + termCount
      ensures text == Render(lastNumbers, mode)
    {
      if |lastNumbers| == 0 {
        lastNumbers := [0, 0];
        PlaceholderIsRendered(mode);
        return "0 " + Symbol(mode) + " 0?";
      }
      ghost var start := drawn;
      lastNumbers := [];
      var i := 0;
      while i < termCount
        invariant 0 <= i <= termCount
        invariant drawn == start + i
        invariant |lastNumbers| == i
        invariant forall j :: 0 <= j < i ==> lastNumbers[j] == RandomTerm(termLengths[j], random(start + j))
      {
        var n := GenerateRandomNumber(termLengths[i]);
        lastNumbers := lastNumbers + [n];
        i := i + 1;
      }
      assert lastNumbers == Terms(termLengths, random, start);
      text := QuestionText(lastNumbers);
    }

    /** The second loop of generateQuestionData: the operands joined by the mode's symbol, then "?". */
    method QuestionText(ns: seq<nat>) returns (text: string)
      ensures text == Render(ns, mode)
    {
      var sep := " " + Symbol(mode) + " ";
      text := "";
      var i := 0;
      while i < |ns|
        invariant 0 <= i <= |ns|
        invariant text == JoinNats(ns[..i], sep)
      {
        JoinNatsExtend(ns, sep, i);
        if i > 0 {
          text := text + sep;
        }
        text := text + NatToString(ns[i]);
        i := i + 1;
      }
      assert ns[..i] == ns;
      text := text + "?";
    }

    /** calculateCorrectAnswer: the operands combined left to right in the current mode. */
    method CalculateCorrectAnswer() returns (result: Option<real>)
      ensures result == CorrectAnswer(lastNumbers, mode)
    {
      if |lastNumbers| == 0 {
        return Some(0.0);
      }
      result := Some(lastNumbers[0] as real);
      var i := 1;
      while i < |lastNumbers|
        invariant 1 <= i <= |lastNumbers|
        invariant result == Fold(lastNumbers[..i], mode)
      {
        var x := lastNumbers[i];
        ghost var prev := result;
        match result {
          case None =>
          case Some(a) =>
            match mode {
              case Addition => result := Some(a + x as real);
              case Subtraction => result := Some(a - x as real);
              case Multiplication =>
                result := Some(a * x as real);
                assert Step(prev, x, mode).value == result.value;
              case Division => result := if x == 0 then None else Some(a / x as real);
            }
        }
        assert result == Step(prev, x, mode);
        assert lastNumbers[..i + 1][..i] == lastNumbers[..i];
        assert Fold(lastNumbers[..i + 1], mode) == Step(Fold(lastNumbers[..i], mode), x, mode);
        i := i + 1;
      }
      assert lastNumbers[..i] == lastNumbers;
    }

    /**
     * refreshQuestion: read the answer box, start a trial if none runs, grade
     * and count, show a new question and clear the answer box.
     */
    method RefreshQuestion(now: int)
      requires Ready()
      modifies this, currentTrial
      ensures Snapshot() == Refresh(old(Snapshot()), random, now)
      ensures Valid() && currentTrial != null
      ensures old(currentTrial) != null ==> currentTrial == old(currentTrial)
      ensures old(currentTrial) == null ==> fresh(currentTrial)
      decreases if currentTrial == null then 1 else 0, 1
    {
      var userAnswer := answer;
      if currentTrial == null {
        StartTrial(now);
      }
      var isCorrect := GradeAnswer(userAnswer);
      ShowNextQuestion();
    }

    /**
     * The grading part of refreshQuestion: with operands on display, compare
     * the answer with the correct one and, while a trial runs, count it.
     */
    method GradeAnswer(userAnswer: Option<real>) returns (isCorrect: bool)
      requires Ready()
      modifies currentTrial
      ensures isCorrect == IsCorrect(userAnswer, old(Snapshot()))
      ensures Snapshot() == Graded(old(Snapshot()), userAnswer)
      ensures Ready()
    {
      var correctAnswer := CalculateCorrectAnswer();
      isCorrect := false;
      if |lastNumbers| > 0 {
        isCorrect := Grade(userAnswer, correctAnswer);
        if currentTrial != null {
          currentTrial.CountQuestion(isCorrect);
        }
      }
    }

    /** The display part of refreshQuestion: new operands, their text shown, the answer box cleared. */
    method ShowNextQuestion()
      requires Ready()
      modifies this
      ensures Snapshot() == Generate(old(Snapshot()), random).(answer := None)
      ensures currentTrial == old(currentTrial)
      ensures Valid()
    {
      ghost var s0 := Snapshot();
      var newQuestion := GenerateQuestionData();
      question := newQuestion;
      answer := None;
      GenerateFields(s0, random, lastNumbers, question, drawn);
    }

    /** startTrial: a new trial record with zeroed counters, then a refresh. */
    method StartTrial(now: int)
      requires Ready() && currentTrial == null
      modifies this
      ensures Valid() && currentTrial != null && fresh(currentTrial)
      ensures Snapshot() == Session.StartTrial(old(Snapshot()), random, now)
      decreases 1, 0
    {
      currentTrial := new TrialRecord(now, trialDuration);
      RefreshQuestion(now);
    }

    /** stopTrial: discard the trial record and hand back its counts. */
    method StopTrial() returns (results: Option<Results>)
      requires Valid()
      modifies this
      ensures (Snapshot(), results) == Session.StopTrial(old(Snapshot()))
      ensures Valid()
    {
      if currentTrial == null {
        return None;
      }
      var total := currentTrial.totalQuestions;
      var correct := currentTrial.correctAnswers;
      var accuracy := if total > 0 then correct as real / total as real else 0.0;
      results := Some(Results(total, correct, accuracy));
      currentTrial := null;
    }

    /** The body of the trial timer: finish the trial at its end time, else update timeLeft. */
    method Tick(now: int) returns (completed: Option<string>)
      requires Valid() && currentTrial != null
      modifies this, currentTrial
      ensures (Snapshot(), completed) == Session.Tick(old(Snapshot()), now)
      ensures Valid()
    {
      if now >= currentTrial.endTime {
        var results := StopTrial();
        return Some(CompletedMessage(results.value));
      }
      currentTrial.timeLeft := SecondsLeft(currentTrial.endTime - now);
      return None;
    }

    method Op(args: seq<string>, now: int) returns (message: string)
      requires Valid()
      modifies this, currentTrial
      ensures Outcome(Snapshot(), message) == OpCommand(old(Snapshot()), args, random, now)
      ensures Valid()
    {
      if |args| == 0 {
        return OpMissingMessage;
      }
      var newMode := ToLower(args[0]);
      var op := ParseOperator(newMode);
      if op.None? {
        return OpInvalidMessage;
      }
      mode := op.value;
      RefreshQuestion(now);
      return "mode changed to " + newMode;
    }

    method Tl(args: seq<string>, now: int) returns (message: string)
      requires Valid()
      modifies this, currentTrial
      ensures Outcome(Snapshot(), message) == TlCommand(old(Snapshot()), args, random, now)
      ensures Valid()
    {
      if |args| == 0 {
        return TlMissingMessage;
      }
      var newTermLengths := CollectTermLengths(args);
      if newTermLengths.None? {
        return TlInvalidMessage;
      }
      termLengths := newTermLengths.value;
      termCount := |termLengths|;
      RefreshQuestion(now);
      return TermLengthsSetMessage(termLengths);
    }

    method Tc(args: seq<string>, now: int) returns (message: string)
      requires Valid()
      modifies this, currentTrial
      ensures Outcome(Snapshot(), message) == TcCommand(old(Snapshot()), args, random, now)
      ensures Valid()
    {
      if |args| == 0 {
        return TcMissingMessage;
      }
      var newCount := ParseInt(args[0]);
      if newCount.None? || newCount.value < 2 || newCount.value > 10 {
        assert IntInRange(args[0], 2, 10).None?;
        return TcInvalidMessage;
      }
      assert IntInRange(args[0], 2, 10) == Some(newCount.value);
      ghost var s0 := Snapshot();
      ghost var before := termLengths;
      termCount := newCount.value;
      PadTermLengths();
      PaddedPrefixIsResize(before, termLengths, termCount);
      termLengths := termLengths[..termCount];
      assert Snapshot() == s0.(termCount := newCount.value, termLengths := Resize(before, newCount.value));
      RefreshQuestion(now);
      return TermCountSetMessage(termCount);
    }

    /** The while loop of `tc`: push the default length 2 until there is one per term. */
    method PadTermLengths()
      modifies this`termLengths
      ensures |old(termLengths)| <= |termLengths| && termCount <= |termLengths|
      ensures |termLengths| == if |old(termLengths)| < termCount then termCount else |old(termLengths)|
      ensures termLengths[..|old(termLengths)|] == old(termLengths)
      ensures forall j :: |old(termLengths)| <= j < |termLengths| ==> termLengths[j] == 2
    {
      ghost var before := termLengths;
      while |termLengths| < termCount
        invariant |before| <= |termLengths|
        invariant |termLengths| <= if |before| < termCount then termCount else |before|
        invariant termLengths[..|before|] == before
        invariant forall j :: |before| <= j < |termLengths| ==> termLengths[j] == 2
        decreases termCount - |termLengths|
      {
        termLengths := termLengths + [2];
      }
    }

    method Cd(args: seq<string>) returns (message: string)
      requires Valid()
      modifies this
      ensures Outcome(Snapshot(), message) == CdCommand(old(Snapshot()), args)
      ensures Valid()
    {
      if |args| == 0 {
        return CdMissingMessage;
      }
      var newDuration := ParseInt(args[0]);
      if newDuration.None? || newDuration.value < 10 || newDuration.value > 3600 {
        return CdInvalidMessage;
      }
      trialDuration := newDuration.value;
      return DurationSetMessage(trialDuration);
    }

    method Start(now: int) returns (message: string)
      requires Valid()
      modifies this
      ensures Outcome(Snapshot(), message) == StartCommand(old(Snapshot()), random, now)
      ensures Valid()
    {
      if currentTrial != null {
        return StartRunningMessage;
      }
      StartTrial(now);
      return TrialStartedMessage(trialDuration);
    }

    method Stop() returns (message: string)
      requires Valid()
      modifies this
      ensures Outcome(Snapshot(), message) == StopCommand(old(Snapshot()))
      ensures Valid()
    {
      if currentTrial == null {
        return StopIdleMessage;
      }
      var results := StopTrial();
      return StoppedMessage(results.value);
    }

    /** commands[name].execute(args): the handler of one registry entry. */
    method RunCommand(c: Command, args: seq<string>, now: int) returns (result: string)
      requires Valid()
      modifies this, currentTrial
      ensures Outcome(Snapshot(), result) == Dispatch(c, old(Snapshot()), args, random, now)
      ensures Valid()
    {
      match c {
        case Op => result := Op(args, now);
        case Tl => result := Tl(args, now);
        case Tc => result := Tc(args, now);
        case Cd => result := Cd(args);
        case Start => result := Start(now);
        case Stop => result := Stop();
        case Help => result := HelpMessage();
      }
    }

    /** executeCommand: split the line, look the lower-cased name up and run its handler. */
    method ExecuteCommand(commandString: string, now: int) returns (result: string)
      requires Valid()
      modifies this, currentTrial
      ensures Outcome(Snapshot(), result) == Execute(old(Snapshot()), commandString, random, now)
      ensures Valid()
    {
      var parts := Split(Trim(commandString));
      var cmdName := ToLower(parts[0]);
      var args := parts[1..];
      match Lookup(cmdName) {
        case None => result := UnknownCommandMessage(cmdName);
        case Some(c) => result := RunCommand(c, args, now);
      }
    }

    /**
     * Enter in the command box: a blank line is ignored; otherwise the trimmed
     * line runs, and what is displayed is the result when it is an error and
     * the command itself when it is not.
     */
    method EnterCommand(line: string, now: int) returns (shown: Option<(string, bool)>)
      requires Valid()
      modifies this, currentTrial
      ensures shown.None? <==> Trim(line) == ""
      ensures shown.None? ==> Snapshot() == old(Snapshot())
      ensures shown.Some? ==>
        var o := Execute(old(Snapshot()), Trim(line), random, now);
        && Snapshot() == o.state
        && shown.value == (if IsError(o.message) then o.message else Trim(line), IsError(o.message))
      ensures shown.Some? && shown.value.1 ==> Snapshot() == old(Snapshot())
      ensures Valid()
    {
      var commandString := Trim(line);
      if commandString == "" {
        return None;
      }
      ghost var before := Snapshot();
      SessionFacts.ErrorsChangeNothing(before, commandString, random, now);
      var result := ExecuteCommand(commandString, now);
      ghost var o := Execute(before, commandString, random, now);
      assert Snapshot() == o.state && result == o.message;
      var isError := IsError(result);
      shown := Some((if isError then result else commandString, isError));
    }
  }
}

=== FILE: jstext.dfy ===
/**
 * The JavaScript string primitives the command line and the question text rely on:
 * trim, toLowerCase, split(' '), join, parseInt and the decimal rendering of a
 * non-negative integer.  Each is written out so that its edge cases (empty
 * pieces from double spaces, "3x" read as 3, "0x10" read as hexadecimal) are
 * those of the language, not of Dafny.
 */
module JsText {
  import opened Optional

  /** ECMAScript WhiteSpace and LineTerminator code points: what trim and parseInt skip. */
  predicate IsWhitespace(c: char) {
    || c == '\t' || c == '\n' || c == '\U{000B}' || c == '\U{000C}' || c == '\r'
    || c == ' ' || c == '\U{00A0}' || c == '\U{1680}' || ('\U{2000}' <= c <= '\U{200A}')
    || c == '\U{2028}' || c == '\U{2029}' || c == '\U{202F}' || c == '\U{205F}'
    || c == '\U{3000}' || c == '\U{FEFF}'
  }

  /** String.prototype.trimStart: drops the leading whitespace and nothing else. */
  function TrimStart(s: string): (r: string)
    ensures |r| <= |s| && r == s[|s| - |r|..]
    ensures forall i :: 0 <= i < |s| - |r| ==> IsWhitespace(s[i])
    ensures r != [] ==> !IsWhitespace(r[0])
  {
    if |s| > 0 && IsWhitespace(s[0]) then TrimStart(s[1..]) else s
  }

  /** String.prototype.trimEnd: drops the trailing whitespace and nothing else. */
  function TrimEnd(s: string): (r: string)
    ensures |r| <= |s| && r == s[..|r|]
    ensures forall i :: |r| <= i < |s| ==> IsWhitespace(s[i])
    ensures r != [] ==> !IsWhitespace(r[|r| - 1])
  {
    if |s| > 0 && IsWhitespace(s[|s| - 1]) then TrimEnd(s[..|s| - 1]) else s
  }

  /** String.prototype.trim */
  function Trim(s: string): string {
    TrimEnd(TrimStart(s))
  }

  /** A string trims to the empty string exactly when every character of it is whitespace. */
  lemma TrimEmptyIffBlank(s: string)
    ensures Trim(s) == [] <==> forall i :: 0 <= i < |s| ==> IsWhitespace(s[i])
  {
  }

  /** toLowerCase on one character; only the ASCII letters are mapped. */
  function LowerChar(c: char): (r: char)
    ensures !('A' <= r <= 'Z')
    ensures !('A' <= c <= 'Z') ==> r == c
    ensures 'A' <= c <= 'Z' ==> r as int == c as int + 32
  {
    if 'A' <= c <= 'Z' then (c as int - 'A' as int + 'a' as int) as char else c
  }

  /** String.prototype.toLowerCase, character by character. */
  function ToLower(s: string): (r: string)
    ensures |r| == |s|
    ensures forall i :: 0 <= i < |s| ==> r[i] == LowerChar(s[i])
  {
    seq(|s|, i requires 0 <= i < |s| => LowerChar(s[i]))
  }

  /** A word made of the letters a to z only. */
  predicate IsLowerWord(w: string) {
    forall i :: 0 <= i < |w| ==> 'a' <= w[i] <= 'z'
  }

  lemma LowerWordIsTrimmed(w: string)
    requires IsLowerWord(w)
    ensures Trim(w) == w
  {
    if |w| > 0 {
      assert !IsWhitespace(w[0]);
      assert TrimStart(w) == w;
      assert !IsWhitespace(w[|w| - 1]);
    }
  }

  lemma LowerWordIsLowerCase(w: string)
    requires IsLowerWord(w)
    ensures ToLower(w) == w
  {
    assert forall i :: 0 <= i < |w| ==> ToLower(w)[i] == w[i];
  }

  /**
   * s.split(' '): the pieces between single spaces, in order.  Two adjacent
   * spaces produce an empty piece, and the empty string splits to [""].
   */
  function Split(s: string): (parts: seq<string>)
    ensures |parts| >= 1
    ensures forall i :: 0 <= i < |parts| ==> ' ' !in parts[i]
  {
    if s == [] then [""]
    else
      var rest := Split(s[1..]);
      if s[0] == ' ' then [""] + rest else [[s[0]] + rest[0]] + rest[1..]
  }

  /** parts.join(sep) */
  function Join(parts: seq<string>, sep: string): string {
    if parts == [] then ""
    else if |parts| == 1 then parts[0]
    else parts[0] + sep + Join(parts[1..], sep)
  }

  /** Joining the pieces of a split gives back the string. */
  lemma {:induction false} JoinOfSplit(s: string)
    ensures Join(Split(s), " ") == s
  {
    if s != [] {
      var rest := Split(s[1..]);
      JoinOfSplit(s[1..]);
      var p := Split(s);
      if s[0] == ' ' {
        assert p == [""] + rest && p[1..] == rest;
        assert Join(p, " ") == "" + " " + Join(rest, " ");
      } else {
        assert p == [[s[0]] + rest[0]] + rest[1..];
        if |rest| == 1 {
          assert Join(p, " ") == [s[0]] + rest[0];
        } else {
          assert p[1..] == rest[1..];
          assert Join(p, " ") == [s[0]] + rest[0] + " " + Join(rest[1..], " ");
          assert Join(rest, " ") == rest[0] + " " + Join(rest[1..], " ");
        }
      }
      assert s == [s[0]] + s[1..];
    }
  }

  /** A string without a space is a single piece. */
  lemma {:induction false} SplitWithoutSpace(x: string)
    requires ' ' !in x
    ensures Split(x) == [x]
  {
    if x != [] {
      SplitWithoutSpace(x[1..]);
      assert x == [x[0]] + x[1..];
    }
  }

  /** Splitting at a space splits the two sides independently. */
  lemma {:induction false} SplitAtSpace(x: string, y: string)
    ensures Split(x + " " + y) == Split(x) + Split(y)
  {
    var s := x + " " + y;
    if x == [] {
      assert s[0] == ' ' && s[1..] == y;
    } else {
      assert s[0] == x[0] && s[1..] == x[1..] + " " + y;
      SplitAtSpace(x[1..], y);
    }
  }

  /** Text without spaces appended to a string extends its last piece. */
  lemma {:induction false} SplitExtendsLast(x: string, t: string)
    requires ' ' !in t
    ensures var p := Split(x);
      Split(x + t) == p[..|p| - 1] + [p[|p| - 1] + t]
  {
    if x == [] {
      assert x + t == t;
      SplitWithoutSpace(t);
    } else {
      assert (x + t)[0] == x[0] && (x + t)[1..] == x[1..] + t;
      SplitExtendsLast(x[1..], t);
      if x[0] == ' ' {
        ExtendLastBehindEmpty(Split(x[1..]), t);
      } else {
        ExtendLastOfJoinedHead(x[0], Split(x[1..]), t);
      }
    }
  }

  lemma ExtendLastBehindEmpty(q: seq<string>, t: string)
    requires |q| >= 1
    ensures var p := [""] + q;
      p[..|p| - 1] + [p[|p| - 1] + t] == [""] + (q[..|q| - 1] + [q[|q| - 1] + t])
  {
    var p := [""] + q;
    assert p[..|p| - 1] == [""] + q[..|q| - 1];
  }

  lemma ExtendLastOfJoinedHead(c: char, q: seq<string>, t: string)
    requires |q| >= 1
    ensures var p := [[c] + q[0]] + q[1..];
      var r := q[..|q| - 1] + [q[|q| - 1] + t];
      [[c] + r[0]] + r[1..] == p[..|p| - 1] + [p[|p| - 1] + t]
  {
    var r := q[..|q| - 1] + [q[|q| - 1] + t];
    if |q| == 1 {
      assert r == [q[0] + t];
      assert [c] + (q[0] + t) == ([c] + q[0]) + t;
    } else {
      assert r[0] == q[0];
      assert r[1..] == q[1..|q| - 1] + [q[|q| - 1] + t];
    }
  }

  /** Splitting a join of space-free pieces gives the pieces back. */
  lemma {:induction false} SplitOfJoin(parts: seq<string>)
    requires |parts| >= 1
    requires forall i :: 0 <= i < |parts| ==> ' ' !in parts[i]
    ensures Split(Join(parts, " ")) == parts
  {
    if |parts| == 1 {
      SplitWithoutSpace(parts[0]);
    } else {
      SplitOfJoin(parts[1..]);
      SplitAtSpace(parts[0], Join(parts[1..], " "));
      SplitWithoutSpace(parts[0]);
      assert parts == [parts[0]] + parts[1..];
    }
  }

  predicate IsDecimalDigit(c: char) {
    '0' <= c <= '9'
  }

  /** A digit of the given radix (10, or 16 after a "0x" prefix). */
  predicate IsRadixDigit(c: char, radix: nat) {
    IsDecimalDigit(c) || (radix == 16 && ('a' <= c <= 'f' || 'A' <= c <= 'F'))
  }

  function DigitValue(c: char): (v: nat)
    ensures IsDecimalDigit(c) ==> v < 10
  {
    if '0' <= c <= '9' then c as int - '0' as int
    else if 'a' <= c <= 'f' then c as int - 'a' as int + 10
    else if 'A' <= c <= 'F' then c as int - 'A' as int + 10
    else 0
  }

  /** The longest prefix of s made of digits of the radix. */
  function DigitRun(s: string, radix: nat): (r: string)
    ensures r <= s
    ensures forall i :: 0 <= i < |r| ==> IsRadixDigit(r[i], radix)
    ensures |r| < |s| ==> !IsRadixDigit(s[|r|], radix)
  {
    if s != [] && IsRadixDigit(s[0], radix) then [s[0]] + DigitRun(s[1..], radix) else []
  }

  /** The value of a digit string, most significant digit first. */
  function ValueOf(ds: string, radix: nat): nat {
    if ds == [] then 0 else ValueOf(ds[..|ds| - 1], radix) * radix + DigitValue(ds[|ds| - 1])
  }

  /**
   * parseInt(s) with no radix: skip leading whitespace, read an optional sign,
   * read a "0x"/"0X" prefix as radix 16, then the longest run of digits.  No
   * digit at all is NaN (None); characters after the run are ignored.
   */
  function ParseInt(s: string): Option<int> {
    if |s| > 0 && IsWhitespace(s[0]) then ParseInt(s[1..]) else ParseSigned(s)
  }

  /** parseInt reads the number at the start of trimStart(s). */
  lemma {:induction false} ParseIntAfterTrimStart(s: string)
    ensures ParseInt(s) == ParseSigned(TrimStart(s))
  {
    if |s| > 0 && IsWhitespace(s[0]) {
      ParseIntAfterTrimStart(s[1..]);
    }
  }

  function ParseSigned(t: string): Option<int> {
    if |t| > 0 && t[0] == '-' then
      match ParseUnsigned(t[1..])
      case None => None
      case Some(v) => Some(-(v as int))
    else if |t| > 0 && t[0] == '+' then ParseUnsigned(t[1..])
    else ParseUnsigned(t)
  }

  function ParseUnsigned(u: string): Option<nat> {
    if |u| >= 2 && u[0] == '0' && (u[1] == 'x' || u[1] == 'X') then ParseDigits(u[2..], 16)
    else ParseDigits(u, 10)
  }

  function ParseDigits(u: string, radix: nat): Option<nat> {
    var digits := DigitRun(u, radix);
    if digits == [] then None else Some(ValueOf(digits, radix))
  }

  function Pow10(n: nat): (r: nat)
    ensures r >= 1
  {
    if n == 0 then 1 else 10 * Pow10(n - 1)
  }

  function DigitChar(d: nat): (c: char)
    requires d < 10
    ensures IsDecimalDigit(c) && DigitValue(c) == d
  {
    ('0' as int + d) as char
  }

  /** String(n) for a non-negative integer: its decimal digits, no leading zero. */
  function NatToString(n: nat): (s: string)
    ensures |s| >= 1
    ensures forall i :: 0 <= i < |s| ==> IsDecimalDigit(s[i])
  {
    if n < 10 then [DigitChar(n)] else NatToString(n / 10) + [DigitChar(n % 10)]
  }

  /** The digits of n read back give n. */
  lemma {:induction false} ValueOfNatToString(n: nat)
    ensures ValueOf(NatToString(n), 10) == n
  {
    if n >= 10 {
      var a := NatToString(n / 10);
      var s := NatToString(n);
      assert s == a + [DigitChar(n % 10)];
      assert s[..|s| - 1] == a;
      ValueOfNatToString(n / 10);
    }
  }

  /** A number in [10^(d-1), 10^d) is written with exactly d digits. */
  lemma {:induction false} NatToStringLength(n: nat, d: nat)
    requires d >= 1 && Pow10(d - 1) <= n < Pow10(d)
    ensures |NatToString(n)| == d
  {
    if d > 1 {
      assert Pow10(d - 1) == 10 * Pow10(d - 2);
      assert Pow10(d) == 10 * Pow10(d - 1);
      NatToStringLength(n / 10, d - 1);
    }
  }

  lemma {:induction false} DigitRunStops(d: string, rest: string, radix: nat)
    requires forall i :: 0 <= i < |d| ==> IsRadixDigit(d[i], radix)
    requires rest == [] || !IsRadixDigit(rest[0], radix)
    ensures DigitRun(d + rest, radix) == d
  {
    if d != [] {
      assert (d + rest)[1..] == d[1..] + rest;
      DigitRunStops(d[1..], rest, radix);
      assert d == [d[0]] + d[1..];
    } else {
      assert d + rest == rest;
    }
  }

  /** parseInt of text that starts with a decimal digit and is not a "0x" literal. */
  lemma ParseIntOfDecimal(s: string)
    requires |s| > 0 && IsDecimalDigit(s[0])
    requires !(|s| >= 2 && s[0] == '0' && (s[1] == 'x' || s[1] == 'X'))
    ensures ParseInt(s) == Some(ValueOf(DigitRun(s, 10), 10))
  {
    assert !IsWhitespace(s[0]);
    assert TrimStart(s) == s;
    assert ParseSigned(s) == ParseUnsigned(s);
    assert ParseUnsigned(s) == ParseDigits(s, 10);
    assert DigitRun(s, 10) != [];
  }

  /**
   * parseInt reads a number written in decimal back, whatever non-digit text
   * follows it ("3x" is 3, "12?" is 12) -- except that "0" followed by "x" or
   * "X" starts a hexadecimal literal.
   */
  lemma ParseIntReadsLeadingNumber(n: nat, rest: string)
    requires rest == [] || !IsDecimalDigit(rest[0])
    requires !(n == 0 && |rest| > 0 && (rest[0] == 'x' || rest[0] == 'X'))
    ensures ParseInt(NatToString(n) + rest) == Some(n)
  {
    var d := NatToString(n);
    var s := d + rest;
    assert s[0] == d[0];
    if |s| >= 2 && s[0] == '0' {
      if |d| >= 2 {
        assert s[1] == d[1];
      } else {
        assert n == 0;
        assert s[1] == rest[0];
      }
    }
    ParseIntOfDecimal(s);
    DigitRunStops(d, rest, 10);
    ValueOfNatToString(n);
  }

  /** ns.join(sep) for non-negative numbers. */
  function JoinNats(ns: seq<nat>, sep: string): string {
    if ns == [] then ""
    else if |ns| == 1 then NatToString(ns[0])
    else JoinNats(ns[..|ns| - 1], sep) + sep + NatToString(ns[|ns| - 1])
  }

  /** Joining one more number: the separator goes before it unless it is the first. */
  lemma JoinNatsExtend(ns: seq<nat>, sep: string, i: nat)
    requires i < |ns|
    ensures JoinNats(ns[..i + 1], sep) == (if i == 0 then "" else JoinNats(ns[..i], sep) + sep) + NatToString(ns[i])
  {
    assert ns[..i + 1][..i] == ns[..i];
  }
}

=== FILE: optional.dfy ===
/** An optional value: JavaScript's NaN, null and "no result" cases all become None. */
module Optional {

  datatype Option<+T> = None | Some(value: T)
}

=== FILE: questions.dfy ===
/**
 * The question engine: operators, the random operand of a given digit length,
 * the rendered question text, the correct answer as a strict left-to-right
 * fold, and the 0.001 tolerance used to grade an answer.
 *
 * Numbers are exact (`real` for the running result), not IEEE doubles.  A
 * non-finite result (NaN or an infinity, which JavaScript produces when
 * dividing by zero) is None; once the running result is non-finite it stays
 * so, as it does in floating point when every operand is finite.
 */
module Questions {
  import opened Optional
  import opened JsText

  datatype Operator = Addition | Subtraction | Multiplication | Division

  /** The mode name, as the `op` command accepts and echoes it. */
  function OperatorName(op: Operator): string {
    match op
    case Addition => "addition"
    case Subtraction => "subtraction"
    case Multiplication => "multiplication"
    case Division => "division"
  }

  /** The symbol the question text shows for the operator. */
  function Symbol(op: Operator): (sym: string)
    ensures |sym| == 1 && ' ' !in sym
  {
    match op
    case Addition => "+"
    case Subtraction => "-"
    case Multiplication => "\U{00D7}"
    case Division => "\U{00F7}"
  }

  /** A value Math.random can return. */
  predicate IsDraw(r: real) {
    0.0 <= r < 1.0
  }

  /** The successive results of Math.random, indexed by the order in which they are drawn. */
  ghost predicate IsRandomSource(random: nat -> real) {
    forall i: nat :: IsDraw(random(i))
  }

  /** Math.floor(r * k): a draw scaled to one of 0 .. k - 1. */
  function Scale(r: real, k: nat): (n: nat)
    requires IsDraw(r) && k >= 1
    ensures n < k
  {
    var x := r * k as real;
    assert 0.0 <= x < k as real by {
      assert r * k as real < 1.0 * k as real;
    }
    x.Floor
  }

  /**
   * generateRandomNumber(digitLength), given the value r that Math.random
   * returned: a one-digit term is floor(r * 9) + 1 (never 0), a longer one is
   * floor(r * (max - min + 1)) + min with min = 10^(d-1) and max = 10^d - 1.
   */
  function RandomTerm(digitLength: nat, r: real): (n: nat)
    requires 1 <= digitLength && IsDraw(r)
    ensures Pow10(digitLength - 1) <= n < Pow10(digitLength)
  {
    if digitLength == 1 then
      Scale(r, 9) + 1
    else
      var min := Pow10(digitLength - 1);
      var max := Pow10(digitLength) - 1;
      assert max - min + 1 >= 1;
      Scale(r, max - min + 1) + min
  }

  /** A term drawn for digit length d has exactly d decimal digits. */
  lemma RandomTermHasDigits(digitLength: nat, r: real)
    requires 1 <= digitLength && IsDraw(r)
    ensures |NatToString(RandomTerm(digitLength, r))| == digitLength
  {
    NatToStringLength(RandomTerm(digitLength, r), digitLength);
  }

  /** Every value of the range is produced by some result of Math.random. */
  lemma RandomTermReachesEvery(digitLength: nat, v: nat)
    requires 1 <= digitLength && Pow10(digitLength - 1) <= v < Pow10(digitLength)
    ensures var k := Pow10(digitLength) - Pow10(digitLength - 1);
      var r := (v - Pow10(digitLength - 1)) as real / k as real;
      IsDraw(r) && RandomTerm(digitLength, r) == v
  {
    var min := Pow10(digitLength - 1);
    var k := Pow10(digitLength) - min;
    assert Pow10(digitLength) == 10 * min;
    FractionBelowOne(v - min, k);
    var r := (v - min) as real / k as real;
    assert ((v - min) as real).Floor == v - min;
    if digitLength == 1 {
      assert k == 9;
    }
  }

  /**
   * The operands of a new question: operand i has lengths[i] digits and is
   * drawn from the Math.random result number start + i.
   */
  function Terms(lengths: seq<nat>, random: nat -> real, start: nat): (ns: seq<nat>)
    requires forall i :: 0 <= i < |lengths| ==> 1 <= lengths[i]
    requires IsRandomSource(random)
    ensures |ns| == |lengths|
    ensures forall i :: 0 <= i < |lengths| ==> Pow10(lengths[i] - 1) <= ns[i] < Pow10(lengths[i])
  {
    seq(|lengths|, i requires 0 <= i < |lengths| => RandomTerm(lengths[i], random(start + i)))
  }

  /** The question text: the operands joined by " <symbol> ", followed by "?". */
  function Render(ns: seq<nat>, op: Operator): string {
    JoinNats(ns, " " + Symbol(op) + " ") + "?"
  }

  /** toks alternates the operands ns and the symbol sym, operand first and last. */
  ghost predicate Alternates(toks: seq<string>, ns: seq<nat>, sym: string) {
    && |toks| == 2 * |ns| - 1
    && forall j :: 0 <= j < |toks| ==> toks[j] == if j % 2 == 0 then NatToString(ns[j / 2]) else sym
  }

  /** Split on spaces, the joined operands alternate operand and symbol. */
  lemma {:induction false} SplitJoinedOperands(ns: seq<nat>, op: Operator)
    requires |ns| >= 1
    ensures Alternates(Split(JoinNats(ns, " " + Symbol(op) + " ")), ns, Symbol(op))
  {
    var sep := " " + Symbol(op) + " ";
    var last := NatToString(ns[|ns| - 1]);
    assert ' ' !in last;
    SplitWithoutSpace(last);
    if |ns| > 1 {
      var init := ns[..|ns| - 1];
      SplitJoinedOperands(init, op);
      var a := JoinNats(init, sep);
      assert JoinNats(ns, sep) == a + " " + (Symbol(op) + " " + last);
      SplitAtSpace(a, Symbol(op) + " " + last);
      SplitAtSpace(Symbol(op), last);
      SplitWithoutSpace(Symbol(op));
      assert Split(JoinNats(ns, sep)) == Split(a) + [Symbol(op), last];
      AlternatingTokensExtend(Split(a), ns, Symbol(op));
    } else {
      assert JoinNats(ns, sep) == last;
    }
  }

  /** Appending the symbol and the next operand keeps the tokens alternating. */
  lemma AlternatingTokensExtend(front: seq<string>, ns: seq<nat>, sym: string)
    requires |ns| >= 2 && Alternates(front, ns[..|ns| - 1], sym)
    ensures Alternates(front + [sym, NatToString(ns[|ns| - 1])], ns, sym)
  {
    var toks := front + [sym, NatToString(ns[|ns| - 1])];
    forall j | 0 <= j < |toks|
      ensures toks[j] == if j % 2 == 0 then NatToString(ns[j / 2]) else sym
    {
      if j < |front| {
        assert toks[j] == front[j];
      } else if j == |front| {
        assert j % 2 == 1;
      } else {
        assert j / 2 == |ns| - 1;
      }
    }
  }

  /** The tokens of a rendered question: the operand tokens, the last one followed by "?". */
  lemma QuestionTokens(ns: seq<nat>, op: Operator)
    requires |ns| >= 1
    ensures var toks := Split(Render(ns, op));
      && |toks| == 2 * |ns| - 1
      && (forall j :: 0 <= j < |toks| - 1 ==>
            toks[j] == if j % 2 == 0 then NatToString(ns[j / 2]) else Symbol(op))
      && toks[|toks| - 1] == NatToString(ns[|ns| - 1]) + "?"
  {
    var joined := JoinNats(ns, " " + Symbol(op) + " ");
    var p := Split(joined);
    SplitJoinedOperands(ns, op);
    SplitExtendsLast(joined, "?");
    assert (|p| - 1) / 2 == |ns| - 1;
  }

  lemma OperandToken(ns: seq<nat>, op: Operator, i: nat)
    requires i < |ns|
    ensures 2 * i < |Split(Render(ns, op))|
    ensures ParseInt(Split(Render(ns, op))[2 * i]) == Some(ns[i])
  {
    QuestionTokens(ns, op);
    var toks := Split(Render(ns, op));
    var j := 2 * i;
    var rest := if i == |ns| - 1 then "?" else "";
    assert toks[j] == NatToString(ns[i]) + rest by {
      if i < |ns| - 1 {
        assert j % 2 == 0 && j / 2 == i;
      }
    }
    ParseIntReadsLeadingNumber(ns[i], rest);
  }

  /**
   * The question text can be read back: split on spaces it alternates operand
   * and symbol, and parseInt of the operand tokens (the last one carries the
   * "?") gives the operands in order.
   */
  lemma QuestionTextDecodes(ns: seq<nat>, op: Operator)
    requires |ns| >= 1
    ensures var toks := Split(Render(ns, op));
      && |toks| == 2 * |ns| - 1
      && (forall j :: 0 <= j < |toks| && j % 2 == 1 ==> toks[j] == Symbol(op))
      && (forall i :: 0 <= i < |ns| ==> ParseInt(toks[2 * i]) == Some(ns[i]))
  {
    QuestionTokens(ns, op);
    var toks := Split(Render(ns, op));
    forall j | 0 <= j < |toks| && j % 2 == 1 ensures toks[j] == Symbol(op) {
      assert j != 2 * |ns| - 2;
    }
    forall i | 0 <= i < |ns| ensures ParseInt(toks[2 * i]) == Some(ns[i]) {
      OperandToken(ns, op, i);
    }
  }

  /** One step of the running result; a non-finite value (None) stays non-finite. */
  function Step(acc: Option<real>, x: nat, op: Operator): Option<real> {
    match acc
    case None => None
    case Some(a) =>
      match op
      case Addition => Some(a + x as real)
      case Subtraction => Some(a - x as real)
      case Multiplication => Some(a * x as real)
      case Division => if x == 0 then None else Some(a / x as real)
  }

  /** The left fold of the operands, the first operand being the seed. */
  function Fold(ns: seq<nat>, op: Operator): Option<real>
    requires |ns| >= 1
  {
    if |ns| == 1 then Some(ns[0] as real) else Step(Fold(ns[..|ns| - 1], op), ns[|ns| - 1], op)
  }

  /** calculateCorrectAnswer: 0 when there are no operands, otherwise the left fold. */
  function CorrectAnswer(ns: seq<nat>, op: Operator): Option<real> {
    if |ns| == 0 then Some(0.0) else Fold(ns, op)
  }

  /** Three operands are combined strictly left to right: (a op b) op c. */
  lemma ThreeOperandsLeftToRight(a: nat, b: nat, c: nat, op: Operator)
    ensures CorrectAnswer([a, b, c], op) == Step(Step(Some(a as real), b, op), c, op)
  {
    assert [a, b, c][..2] == [a, b] && [a, b][..1] == [a];
    assert Fold([a, b], op) == Step(Some(a as real), b, op);
    assert Fold([a, b, c], op) == Step(Fold([a, b], op), c, op);
  }

  function Sum(ns: seq<nat>): nat {
    if ns == [] then 0 else ns[0] + Sum(ns[1..])
  }

  function Product(ns: seq<nat>): nat {
    if ns == [] then 1 else ns[0] * Product(ns[1..])
  }

  lemma {:induction false} SumAppend(ns: seq<nat>, x: nat)
    ensures Sum(ns + [x]) == Sum(ns) + x
  {
    if ns != [] {
      assert (ns + [x])[1..] == ns[1..] + [x];
      SumAppend(ns[1..], x);
    } else {
      assert [] + [x] == [x];
    }
  }

  lemma {:induction false} ProductAppend(ns: seq<nat>, x: nat)
    ensures Product(ns + [x]) == Product(ns) * x
  {
    if ns != [] {
      assert (ns + [x])[1..] == ns[1..] + [x];
      ProductAppend(ns[1..], x);
      assert ns[0] * (Product(ns[1..]) * x) == (ns[0] * Product(ns[1..])) * x;
    } else {
      assert [] + [x] == [x];
    }
  }

  /** Under addition the answer is the sum of the operands (0 for none). */
  lemma {:induction false} AdditionIsSum(ns: seq<nat>)
    ensures CorrectAnswer(ns, Addition) == Some(Sum(ns) as real)
  {
    if |ns| == 1 {
      assert ns[1..] == [];
    } else if |ns| > 1 {
      var init := ns[..|ns| - 1];
      AdditionIsSum(init);
      SumAppend(init, ns[|ns| - 1]);
      assert init + [ns[|ns| - 1]] == ns;
    }
  }

  /** Under subtraction the answer is the first operand minus the sum of the others. */
  lemma {:induction false} SubtractionIsFirstMinusRest(ns: seq<nat>)
    requires |ns| >= 1
    ensures CorrectAnswer(ns, Subtraction) == Some(ns[0] as real - Sum(ns[1..]) as real)
  {
    if |ns| > 1 {
      var init := ns[..|ns| - 1];
      SubtractionIsFirstMinusRest(init);
      SumAppend(init[1..], ns[|ns| - 1]);
      assert init[1..] + [ns[|ns| - 1]] == ns[1..];
    }
  }

  /** Under multiplication the answer is the product of the operands. */
  lemma {:induction false} MultiplicationIsProduct(ns: seq<nat>)
    requires |ns| >= 1
    ensures CorrectAnswer(ns, Multiplication) == Some(Product(ns) as real)
  {
    if |ns| == 1 {
      assert ns[1..] == [];
    } else {
      var init := ns[..|ns| - 1];
      var x := ns[|ns| - 1];
      MultiplicationIsProduct(init);
      ProductAppend(init, x);
      assert init + [x] == ns;
      MultiplyStep(Product(init), x);
      assert Fold(ns, Multiplication) == Step(Fold(init, Multiplication), x, Multiplication);
    }
  }

  /** Under division the answer is non-finite exactly when some divisor is 0. */
  lemma {:induction false} DivisionNonFiniteIffZeroDivisor(ns: seq<nat>)
    requires |ns| >= 1
    ensures CorrectAnswer(ns, Division).None? <==> 0 in ns[1..]
  {
    if |ns| > 1 {
      var init := ns[..|ns| - 1];
      var x := ns[|ns| - 1];
      DivisionNonFiniteIffZeroDivisor(init);
      assert init[1..] + [x] == ns[1..];
      assert 0 in ns[1..] <==> 0 in init[1..] || x == 0;
    }
  }

  /** With no zero divisor, the answer is the first operand divided by the product of the others. */
  lemma {:induction false} DivisionIsQuotient(ns: seq<nat>)
    requires |ns| >= 1 && 0 !in ns[1..]
    ensures Product(ns[1..]) > 0
    ensures CorrectAnswer(ns, Division) == Some(ns[0] as real / Product(ns[1..]) as real)
  {
    ProductPositive(ns[1..]);
    if |ns| == 1 {
      assert ns[1..] == [] && Product(ns[1..]) == 1;
      assert ns[0] as real / 1 as real == ns[0] as real;
    } else {
      var init := ns[..|ns| - 1];
      var x := ns[|ns| - 1];
      assert init[1..] + [x] == ns[1..];
      assert 0 !in init[1..] && x != 0;
      DivisionIsQuotient(init);
      var p := Product(init[1..]);
      ProductAppend(init[1..], x);
      DivideTwice(ns[0] as real, p, x);
      assert init[0] == ns[0];
      assert Fold(ns, Division) == Step(Fold(init, Division), x, Division);
    }
  }

  lemma DivideTwice(a: real, p: nat, x: nat)
    requires p > 0 && x > 0
    ensures (a / p as real) / x as real == a / (p * x) as real
  {
    assert (p * x) as real == p as real * x as real;
  }

  /** One multiplication step on a whole-number accumulator. */
  lemma MultiplyStep(p: nat, x: nat)
    ensures Step(Some(p as real), x, Multiplication) == Some((p * x) as real)
  {
    RealOfProduct(p, x);
    var r := Step(Some(p as real), x, Multiplication);
    assert r.value == p as real * x as real;
  }

  lemma RealOfProduct(p: nat, x: nat)
    ensures (p * x) as real == p as real * x as real
  {
  }

  lemma FractionBelowOne(a: nat, k: nat)
    requires a < k
    ensures 0.0 <= a as real / k as real < 1.0
    ensures (a as real / k as real) * k as real == a as real
  {
  }

  lemma {:induction false} ProductPositive(ns: seq<nat>)
    requires 0 !in ns
    ensures Product(ns) > 0
  {
    if ns != [] {
      assert ns[0] != 0 && 0 !in ns[1..];
      ProductPositive(ns[1..]);
    }
  }

  /**
   * The grading test of refreshQuestion: a finite answer strictly within 0.001
   * of a finite correct value.  NaN or an infinity on either side never passes.
   */
  function Grade(answer: Option<real>, correct: Option<real>): (ok: bool)
    ensures ok ==> answer.Some? && correct.Some?
  {
    match (answer, correct)
    case (Some(u), Some(c)) => -0.001 < u - c < 0.001
    case _ => false
  }

  /** The tolerance is strict and two-sided: 10.0009 passes for 10, 10.002 does not, on either side. */
  lemma GradeBoundary()
    ensures Grade(Some(10.0009), Some(10.0)) && Grade(Some(9.9991), Some(10.0))
    ensures !Grade(Some(10.002), Some(10.0)) && !Grade(Some(9.998), Some(10.0))
    ensures !Grade(None, Some(10.0))
  {
  }
}

=== FILE: session.dfy ===
/**
 * The drill's closure state as one value, and every transition of it as a
 * function: question generation, the grading and counting step of
 * refreshQuestion, startTrial / stopTrial, the timer callback, and the seven
 * command handlers behind executeCommand.  The class in drill.dfy performs
 * the same transitions in place and is specified by these functions.
 *
 * Math.random is the source `random` (its n-th result is random(n), and
 * `drawn` counts the results used so far); Date.now is the parameter `now`.
 */
module Session {
  import opened Optional
  import opened JsText
  import opened Questions
  import opened Commands

  /** currentTrial while it is not null; times are in milliseconds. */
  datatype Trial = Trial(startTime: int, endTime: int, total: nat, correct: nat, timeLeft: int)

  /** The record stopTrial returns. */
  datatype Results = Results(total: nat, correct: nat, accuracy: real)

  /**
   * The closure variables, the question area's text and the answer box's
   * value as parseFloat reads it (None for NaN).
   */
  datatype State = State(
    mode: Operator,
    lastNumbers: seq<nat>,
    question: string,
    answer: Option<real>,
    termCount: nat,
    termLengths: seq<nat>,
    trialDuration: nat,
    trial: Option<Trial>,
    drawn: nat)

  /** A handler's new state and the text it returns. */
  datatype Outcome = Outcome(state: State, message: string)

  /** The text the question area holds before the first refresh. */
  const LoadingText := "website loaded"

  /** The closure variables as declared, before the refresh at page load. */
  const Initial := State(Addition, [], LoadingText, None, 2, [2, 2], 60, None, 0)

  predicate LengthsInRange(lengths: seq<nat>) {
    forall i :: 0 <= i < |lengths| ==> 1 <= lengths[i] <= 5
  }

  /** Operand i has exactly lengths[i] digits. */
  predicate Fits(ns: seq<nat>, lengths: seq<nat>) {
    |ns| == |lengths| && forall i :: 0 <= i < |ns| ==> 1 <= lengths[i] && Pow10(lengths[i] - 1) <= ns[i] < Pow10(lengths[i])
  }

  /**
   * What every handler keeps of the configuration and the counters: one
   * length per term, each in [1,5]; a duration in [10,3600]; no more correct
   * answers than questions.
   */
  predicate Configured(s: State) {
    && s.termCount >= 1
    && |s.termLengths| == s.termCount
    && LengthsInRange(s.termLengths)
    && 10 <= s.trialDuration <= 3600
    && (s.trial.Some? ==> s.trial.value.correct <= s.trial.value.total)
  }

  /**
   * What holds of the state between any two events: the configuration
   * invariant, and once numbers exist, the question area shows them.
   */
  predicate Inv(s: State) {
    Configured(s) && (s.lastNumbers != [] ==> s.question == Render(s.lastNumbers, s.mode))
  }

  lemma InitialInv()
    ensures Inv(Initial)
  {
  }

  /** The placeholder text is the rendering of the placeholder operands. */
  lemma {:induction false} PlaceholderIsRendered(op: Operator)
    ensures "0 " + Symbol(op) + " 0?" == Render([0, 0], op)
  {
    assert JoinNats([0, 0], " " + Symbol(op) + " ") == JoinNats([0], " " + Symbol(op) + " ") + " " + Symbol(op) + " " + NatToString(0);
    assert NatToString(0) == "0";
  }

  /**
   * generateQuestionData: the placeholder [0,0] on the very first call, and
   * afterwards termCount fresh operands of the configured lengths.
   */
  function Generate(s: State, random: nat -> real): (t: State)
    requires Configured(s) && IsRandomSource(random)
    ensures t.question == Render(t.lastNumbers, t.mode)
    ensures s.lastNumbers == [] ==> t.lastNumbers == [0, 0] && t.drawn == s.drawn
    ensures s.lastNumbers != [] ==> Fits(t.lastNumbers, s.termLengths) && t.drawn == s.drawn + s.termCount
    ensures t.(lastNumbers := s.lastNumbers, question := s.question, drawn := s.drawn) == s
  {
    if s.lastNumbers == [] then
      PlaceholderIsRendered(s.mode);
      s.(lastNumbers := [0, 0], question := "0 " + Symbol(s.mode) + " 0?")
    else
      var ns := Terms(s.termLengths, random, s.drawn);
      s.(lastNumbers := ns, question := Render(ns, s.mode), drawn := s.drawn + s.termCount)
  }

  /** Generate, field by field: the operands, their rendering and the draws used. */
  lemma GenerateFields(s: State, random: nat -> real, ns: seq<nat>, text: string, drawn: nat)
    requires Configured(s) && IsRandomSource(random)
    requires s.lastNumbers == [] ==> ns == [0, 0] && drawn == s.drawn
    requires s.lastNumbers != [] ==> ns == Terms(s.termLengths, random, s.drawn) && drawn == s.drawn + s.termCount
    requires text == Render(ns, s.mode)
    ensures Generate(s, random) == s.(lastNumbers := ns, question := text, drawn := drawn)
  {
    PlaceholderIsRendered(s.mode);
  }

  /** The counters after one more question that was graded `ok`. */
  function Count(tr: Trial, ok: bool): (r: Trial)
    ensures r.total == tr.total + 1
    ensures r.correct == if ok then tr.correct + 1 else tr.correct
    ensures r.(total := tr.total, correct := tr.correct) == tr
  {
    tr.(total := tr.total + 1, correct := if ok then tr.correct + 1 else tr.correct)
  }

  /** Whether `answer` is accepted for the operands now on display. */
  function IsCorrect(answer: Option<real>, s: State): bool {
    s.lastNumbers != [] && Grade(answer, CorrectAnswer(s.lastNumbers, s.mode))
  }

  /**
   * The grading step of refreshQuestion: with operands on display and a
   * trial running, the trial counts one more question, and one more correct
   * answer when `userAnswer` passes; otherwise nothing changes.
   */
  function Graded(s: State, userAnswer: Option<real>): (t: State)
    requires Configured(s)
    ensures Configured(t)
    ensures t.(trial := s.trial) == s
    ensures t.trial.Some? <==> s.trial.Some?
    ensures s.trial.Some? && s.lastNumbers != [] ==> t.trial.value == Count(s.trial.value, IsCorrect(userAnswer, s))
    ensures s.trial.None? || s.lastNumbers == [] ==> t == s
  {
    if s.lastNumbers != [] && s.trial.Some? then s.(trial := Some(Count(s.trial.value, IsCorrect(userAnswer, s)))) else s
  }

  /**
   * The rest of refreshQuestion once a trial exists: grade the answer read
   * at entry, count it when there are operands, show a new question and
   * clear the answer box.
   */
  function Advance(s: State, userAnswer: Option<real>, random: nat -> real): (t: State)
    requires Configured(s) && IsRandomSource(random)
    ensures Inv(t)
    ensures t.trial == if s.lastNumbers != [] && s.trial.Some? then Some(Count(s.trial.value, IsCorrect(userAnswer, s))) else s.trial
    ensures t.lastNumbers != [] && t.answer == None
    ensures s.lastNumbers != [] ==> Fits(t.lastNumbers, t.termLengths)
    ensures t.mode == s.mode && t.termCount == s.termCount && t.termLengths == s.termLengths
    ensures t.trialDuration == s.trialDuration
  {
    Generate(Graded(s, userAnswer), random).(answer := None)
  }

  /** The trial startTrial creates at time `now`. */
  function FreshTrial(duration: nat, now: int): Trial {
    Trial(now, now + duration * 1000, 0, 0, duration)
  }

  /**
   * refreshQuestion.  The answer box is read first; with no trial running,
   * startTrial runs, which refreshes once itself, and only then is the
   * answer read at entry graded, against the operands that inner refresh put
   * on display.
   */
  function Refresh(s: State, random: nat -> real, now: int): (t: State)
    requires Configured(s) && IsRandomSource(random)
    ensures Inv(t) && t.trial.Some?
    ensures t.lastNumbers != [] && t.answer == None
    ensures (s.lastNumbers != [] || s.trial.None?) ==> Fits(t.lastNumbers, t.termLengths)
    ensures t.mode == s.mode && t.termCount == s.termCount && t.termLengths == s.termLengths
    ensures t.trialDuration == s.trialDuration
    ensures s.trial.Some? ==> t.trial == Some(if s.lastNumbers != [] then Count(s.trial.value, IsCorrect(s.answer, s)) else s.trial.value)
    ensures s.trial.None? ==> t.trial.value.(total := 0, correct := 0) == FreshTrial(s.trialDuration, now)
    ensures s.trial.None? ==> t.trial.value.total == if s.lastNumbers == [] then 1 else 2
    decreases if s.trial.None? then 1 else 0, 1
  {
    var userAnswer := s.answer;
    var started := if s.trial.None? then StartTrial(s, random, now) else s;
    Advance(started, userAnswer, random)
  }

  /**
   * startTrial: fresh zeroed counters ending trialDuration seconds from
   * now, followed by a refresh.
   */
  function StartTrial(s: State, random: nat -> real, now: int): (t: State)
    requires Configured(s) && IsRandomSource(random) && s.trial.None?
    ensures Inv(t) && t.trial.Some?
    ensures t.lastNumbers != [] && t.answer == None
    ensures s.lastNumbers != [] ==> Fits(t.lastNumbers, t.termLengths)
    ensures t.mode == s.mode && t.termCount == s.termCount && t.termLengths == s.termLengths
    ensures t.trialDuration == s.trialDuration
    ensures t.trial.value == if s.lastNumbers != [] then Count(FreshTrial(s.trialDuration, now), IsCorrect(s.answer, s)) else FreshTrial(s.trialDuration, now)
    decreases 1, 0
  {
    Refresh(s.(trial := Some(FreshTrial(s.trialDuration, now))), random, now)
  }

  /** accuracy = correct / total, and 0 for an empty trial. */
  function Accuracy(total: nat, correct: nat): (a: real)
    requires correct <= total
    ensures 0.0 <= a <= 1.0
    ensures total > 0 ==> a * total as real == correct as real
    ensures total == 0 ==> a == 0.0
  {
    if total > 0 then correct as real / total as real else 0.0
  }

  /** stopTrial: discard the trial and hand back its counts, or null without one. */
  function StopTrial(s: State): (r: (State, Option<Results>))
    requires Inv(s)
    ensures r.0 == s.(trial := None) && Inv(r.0)
    ensures r.1.Some? <==> s.trial.Some?
    ensures s.trial.Some? ==> r.1.value.total == s.trial.value.total && r.1.value.correct == s.trial.value.correct
    ensures s.trial.Some? ==> r.1.value.accuracy == Accuracy(s.trial.value.total, s.trial.value.correct)
  {
    match s.trial
    case None => (s, None)
    case Some(tr) => (s.(trial := None), Some(Results(tr.total, tr.correct, Accuracy(tr.total, tr.correct))))
  }

  /** Math.round(accuracy * 100): halves round up. */
  function Percent(accuracy: real): (p: int)
    ensures p as real - 0.5 <= accuracy * 100.0 < p as real + 0.5
  {
    (accuracy * 100.0 + 0.5).Floor
  }

  lemma PercentInRange(accuracy: real)
    requires 0.0 <= accuracy <= 1.0
    ensures 0 <= Percent(accuracy) <= 100
  {
  }

  /** "c/t correct (p%)" */
  function Summary(r: Results): string {
    NatToString(r.correct) + "/" + NatToString(r.total) + " correct (" + IntToString(Percent(r.accuracy)) + "%)"
  }

  /** The text `stop` answers with. */
  function StoppedMessage(r: Results): (m: string)
    ensures !IsError(m)
    ensures "trial stopped. " <= m
  {
    var m := "trial stopped. " + Summary(r);
    NotAnError(m);
    m
  }

  /** The text the timer shows when the trial ends. */
  function CompletedMessage(r: Results): (m: string)
    ensures !IsError(m)
    ensures "trial complete! " <= m
  {
    var m := "trial complete! " + Summary(r);
    NotAnError(m);
    m
  }

  function IntToString(i: int): string {
    if i < 0 then "-" + NatToString(-i) else NatToString(i)
  }

  /** The summary of a trial with one wrong answer. */
  lemma OneWrongAnswerSummary()
    ensures Summary(Results(1, 0, 0.0)) == "0/1 correct (0%)"
  {
    assert NatToString(0) == "0" && NatToString(1) == "1";
    assert Percent(0.0) == 0;
  }

  lemma OneWrongAnswerStopped()
    ensures StoppedMessage(Results(1, 0, 0.0)) == "trial stopped. 0/1 correct (0%)"
  {
    OneWrongAnswerSummary();
  }

  /** Math.ceil(ms / 1000) for a positive number of milliseconds. */
  function SecondsLeft(ms: int): (secs: int)
    requires ms > 0
    ensures (secs - 1) * 1000 < ms <= secs * 1000
    ensures secs >= 1
  {
    (ms + 999) / 1000
  }

  /**
   * One run of the trial timer's callback: at or after the end time the trial
   * is stopped and the completion text is displayed; before it, timeLeft is
   * the whole seconds remaining, rounded up.
   */
  function Tick(s: State, now: int): (r: (State, Option<string>))
    requires Inv(s) && s.trial.Some?
    ensures Inv(r.0)
    ensures now >= s.trial.value.endTime <==> r.1.Some?
    ensures now >= s.trial.value.endTime ==> r.0 == s.(trial := None)
    ensures now >= s.trial.value.endTime ==>
      var tr := s.trial.value;
      r.1 == Some(CompletedMessage(Results(tr.total, tr.correct, Accuracy(tr.total, tr.correct))))
    ensures now < s.trial.value.endTime ==>
      r.0.trial.Some? && r.0 == s.(trial := Some(s.trial.value.(timeLeft := r.0.trial.value.timeLeft)))
    ensures now < s.trial.value.endTime ==>
      var left := r.0.trial.value.timeLeft; (left - 1) * 1000 < s.trial.value.endTime - now <= left * 1000
  {
    var tr := s.trial.value;
    if now >= tr.endTime then
      var (t, results) := StopTrial(s);
      (t, Some(CompletedMessage(results.value)))
    else
      (s.(trial := Some(tr.(timeLeft := SecondsLeft(tr.endTime - now)))), None)
  }

  /** The state after the page-load refresh. */
  function Load(random: nat -> real, now: int): (s: State)
    requires IsRandomSource(random)
    ensures Inv(s)
  {
    InitialInv();
    Refresh(Initial, random, now)
  }

  // ---------------------------------------------------------------------
  // The command handlers

  function OpCommand(s: State, args: seq<string>, random: nat -> real, now: int): (o: Outcome)
    requires Inv(s) && IsRandomSource(random)
    ensures Inv(o.state)
  {
    if args == [] then Outcome(s, OpMissingMessage)
    else
      match ParseOperator(ToLower(args[0]))
      case None => Outcome(s, OpInvalidMessage)
      case Some(op) => Outcome(Refresh(s.(mode := op), random, now), ModeChangedMessage(op))
  }

  function TlCommand(s: State, args: seq<string>, random: nat -> real, now: int): (o: Outcome)
    requires Inv(s) && IsRandomSource(random)
    ensures Inv(o.state)
  {
    if args == [] then Outcome(s, TlMissingMessage)
    else
      match ParseTermLengths(args)
      case None => Outcome(s, TlInvalidMessage)
      case Some(lengths) =>
        Outcome(Refresh(s.(termLengths := lengths, termCount := |lengths|), random, now), TermLengthsSetMessage(lengths))
  }

  function TcCommand(s: State, args: seq<string>, random: nat -> real, now: int): (o: Outcome)
    requires Inv(s) && IsRandomSource(random)
    ensures Inv(o.state)
  {
    if args == [] then Outcome(s, TcMissingMessage)
    else
      match IntInRange(args[0], 2, 10)
      case None => Outcome(s, TcInvalidMessage)
      case Some(n) =>
        Outcome(Refresh(s.(termCount := n, termLengths := Resize(s.termLengths, n)), random, now), TermCountSetMessage(n))
  }

  function CdCommand(s: State, args: seq<string>): (o: Outcome)
    requires Inv(s)
    ensures Inv(o.state)
  {
    if args == [] then Outcome(s, CdMissingMessage)
    else
      match IntInRange(args[0], 10, 3600)
      case None => Outcome(s, CdInvalidMessage)
      case Some(d) => Outcome(s.(trialDuration := d), DurationSetMessage(d))
  }

  function StartCommand(s: State, random: nat -> real, now: int): (o: Outcome)
    requires Inv(s) && IsRandomSource(random)
    ensures Inv(o.state)
  {
    if s.trial.Some? then Outcome(s, StartRunningMessage)
    else Outcome(StartTrial(s, random, now), TrialStartedMessage(s.trialDuration))
  }

  function StopCommand(s: State): (o: Outcome)
    requires Inv(s)
    ensures Inv(o.state)
  {
    if s.trial.None? then Outcome(s, StopIdleMessage)
    else
      var (t, results) := StopTrial(s);
      Outcome(t, StoppedMessage(results.value))
  }

  function Dispatch(c: Command, s: State, args: seq<string>, random: nat -> real, now: int): (o: Outcome)
    requires Inv(s) && IsRandomSource(random)
    ensures Inv(o.state)
  {
    match c
    case Op => OpCommand(s, args, random, now)
    case Tl => TlCommand(s, args, random, now)
    case Tc => TcCommand(s, args, random, now)
    case Cd => CdCommand(s, args)
    case Start => StartCommand(s, random, now)
    case Stop => StopCommand(s)
    case Help => Outcome(s, HelpMessage())
  }

  /** The command name and the arguments executeCommand reads from a line. */
  function ParseLine(line: string): (string, seq<string>) {
    var parts := Split(Trim(line));
    (ToLower(parts[0]), parts[1..])
  }

  /**
   * A line made of space-free words separated by single spaces is read back
   * as its first word, lower-cased, and the remaining words as arguments.
   */
  lemma ParseLineOfWords(words: seq<string>)
    requires |words| >= 1 && forall i :: 0 <= i < |words| ==> ' ' !in words[i]
    requires Trim(Join(words, " ")) == Join(words, " ")
    ensures ParseLine(Join(words, " ")) == (ToLower(words[0]), words[1..])
  {
    SplitOfJoin(words);
  }

  /** A line that is one word of lower-case letters is read as that command name and no arguments. */
  lemma ParsePlainWord(word: string)
    requires IsLowerWord(word)
    ensures ParseLine(word) == (word, [])
  {
    LowerWordIsTrimmed(word);
    LowerWordIsLowerCase(word);
    var t := Trim(word);
    assert ' ' !in t;
    SplitWithoutSpace(t);
    var parts := Split(t);
    assert parts == [word];
    assert ToLower(parts[0]) == word;
    assert parts[1..] == [];
    assert ParseLine(word) == (ToLower(parts[0]), parts[1..]);
  }

  /** executeCommand: look the lower-cased name up and run its handler. */
  function Execute(s: State, line: string, random: nat -> real, now: int): (o: Outcome)
    requires Inv(s) && IsRandomSource(random)
    ensures Inv(o.state)
  {
    var (name, args) := ParseLine(line);
    match Lookup(name)
    case None => Outcome(s, UnknownCommandMessage(name))
    case Some(c) => Dispatch(c, s, args, random, now)
  }
}

=== FILE: session_facts.dfy ===
/**
 * What each command handler promises: when it succeeds, what it changes;
 * when it refuses, an "error:" text and no change at all.  Then the
 * counting facts of the trial session, including the ones the re-entrant
 * refresh produces.
 */
module SessionFacts {
  import opened Optional
  import opened JsText
  import opened Questions
  import opened Commands
  import opened Session

  /**
   * `op x` switches the mode exactly when x, lower-cased, is one of the four
   * operator names, and then shows a new question in that mode.
   */
  lemma OpContract(s: State, args: seq<string>, random: nat -> real, now: int)
    requires Inv(s) && IsRandomSource(random)
    ensures var o := OpCommand(s, args, random, now);
      && (!IsError(o.message) <==> args != [] && ToLower(args[0]) in OperatorNames)
      && (IsError(o.message) ==> o.state == s)
      && (!IsError(o.message) ==>
            && OperatorName(o.state.mode) == ToLower(args[0])
            && o.message == "mode changed to " + ToLower(args[0])
            && o.state.termLengths == s.termLengths && o.state.trialDuration == s.trialDuration
            && o.state.question == Render(o.state.lastNumbers, o.state.mode))
  {
  }

  /**
   * `tl a1 .. ak` succeeds exactly when k >= 1 and every argument is a term
   * length in [1,5]; it then installs the parsed lengths and k terms.  One
   * bad argument refuses the whole command: nothing is partly updated.
   */
  lemma TlContract(s: State, args: seq<string>, random: nat -> real, now: int)
    requires Inv(s) && IsRandomSource(random)
    ensures var o := TlCommand(s, args, random, now);
      && (!IsError(o.message) <==>
            args != [] && forall i :: 0 <= i < |args| ==> ParseInt(args[i]).Some? && 1 <= ParseInt(args[i]).value <= 5)
      && (IsError(o.message) ==> o.state == s)
      && (!IsError(o.message) ==>
            && o.state.termCount == |args| == |o.state.termLengths|
            && (forall i :: 0 <= i < |args| ==> o.state.termLengths[i] == ParseInt(args[i]).value)
            && o.message == TermLengthsSetMessage(o.state.termLengths)
            && o.state.mode == s.mode && o.state.trialDuration == s.trialDuration)
  {
  }

  /**
   * `tc n` succeeds exactly when n parses to an integer in [2,10]; it then
   * sets termCount to n, keeps the old lengths up to n and gives any new term
   * the length 2.
   */
  lemma TcContract(s: State, args: seq<string>, random: nat -> real, now: int)
    requires Inv(s) && IsRandomSource(random)
    ensures var o := TcCommand(s, args, random, now);
      && (!IsError(o.message) <==> args != [] && ParseInt(args[0]).Some? && 2 <= ParseInt(args[0]).value <= 10)
      && (IsError(o.message) ==> o.state == s)
      && (!IsError(o.message) ==>
            var n := ParseInt(args[0]).value;
            && o.state.termCount == n == |o.state.termLengths|
            && (forall i :: 0 <= i < n ==> o.state.termLengths[i] == if i < |s.termLengths| then s.termLengths[i] else 2)
            && o.message == TermCountSetMessage(n)
            && o.state.mode == s.mode && o.state.trialDuration == s.trialDuration)
  {
  }

  /**
   * `cd d` sets the duration exactly when d parses to an integer in
   * [10,3600], and touches nothing else: no new question, no trial change.
   */
  lemma CdContract(s: State, args: seq<string>)
    requires Inv(s)
    ensures var o := CdCommand(s, args);
      && (!IsError(o.message) <==> args != [] && ParseInt(args[0]).Some? && 10 <= ParseInt(args[0]).value <= 3600)
      && (IsError(o.message) ==> o.state == s)
      && (!IsError(o.message) ==>
            && o.state == s.(trialDuration := ParseInt(args[0]).value)
            && o.message == DurationSetMessage(o.state.trialDuration))
  {
  }

  /**
   * `start` is refused while a trial runs and leaves it untouched; otherwise
   * a trial of the configured duration starts now.
   */
  lemma StartContract(s: State, random: nat -> real, now: int)
    requires Inv(s) && IsRandomSource(random)
    ensures var o := StartCommand(s, random, now);
      && (IsError(o.message) <==> s.trial.Some?)
      && (IsError(o.message) ==> o.state == s)
      && (!IsError(o.message) ==>
            && o.state.trial.Some?
            && o.state.trial.value.startTime == now
            && o.state.trial.value.endTime == now + s.trialDuration * 1000
            && o.message == TrialStartedMessage(s.trialDuration))
  {
  }

  /**
   * `stop` is refused without a trial; otherwise the trial is discarded and
   * its counts reported, with accuracy 0 for a trial of no questions.
   */
  lemma StopContract(s: State)
    requires Inv(s)
    ensures var o := StopCommand(s);
      && (IsError(o.message) <==> s.trial.None?)
      && (IsError(o.message) ==> o.state == s)
      && (!IsError(o.message) ==>
            var tr := s.trial.value;
            && o.state == s.(trial := None)
            && o.message == StoppedMessage(Results(tr.total, tr.correct, Accuracy(tr.total, tr.correct)))
            && (tr.total == 0 ==> o.message == StoppedMessage(Results(0, 0, 0.0))))
  {
    var o := StopCommand(s);
    if s.trial.None? {
      StopRefusedWithoutTrial(s);
      assert IsError(o.message);
    } else {
      StopReportsTrial(s);
      var tr := s.trial.value;
      assert !IsError(o.message);
      assert tr.total == 0 ==> Accuracy(tr.total, tr.correct) == 0.0;
    }
  }

  lemma StopRefusedWithoutTrial(s: State)
    requires Inv(s) && s.trial.None?
    ensures StopCommand(s) == Outcome(s, StopIdleMessage)
  {
  }

  lemma StopReportsTrial(s: State)
    requires Inv(s) && s.trial.Some?
    ensures var tr := s.trial.value;
      StopCommand(s) == Outcome(s.(trial := None), StoppedMessage(Results(tr.total, tr.correct, Accuracy(tr.total, tr.correct))))
  {
    var tr := s.trial.value;
    assert StopTrial(s) == (s.(trial := None), Some(Results(tr.total, tr.correct, Accuracy(tr.total, tr.correct))));
  }

  /** A name outside the registry is answered with the unknown-command error and no change. */
  lemma UnknownCommandContract(s: State, line: string, random: nat -> real, now: int)
    requires Inv(s) && IsRandomSource(random)
    requires Lookup(ParseLine(line).0).None?
    ensures var o := Execute(s, line, random, now);
      && o.state == s
      && o.message == UnknownCommandMessage(ParseLine(line).0)
      && IsError(o.message)
  {
  }

  /** Whatever line is entered, a result classified as an error comes with no change of state. */
  lemma {:induction false} ErrorsChangeNothing(s: State, line: string, random: nat -> real, now: int)
    requires Inv(s) && IsRandomSource(random)
    ensures IsError(Execute(s, line, random, now).message) ==> Execute(s, line, random, now).state == s
  {
    var (name, args) := ParseLine(line);
    match Lookup(name)
    case None =>
    case Some(c) =>
      match c
      case Op => OpContract(s, args, random, now);
      case Tl => TlContract(s, args, random, now);
      case Tc => TcContract(s, args, random, now);
      case Cd => CdContract(s, args);
      case Start => StartContract(s, random, now);
      case Stop => StopContract(s);
      case Help =>
  }

  /**
   * While a trial runs, refreshing with operands on display counts exactly
   * one question, and one correct answer exactly when the answer passes.
   */
  lemma {:induction false} GradedQuestionCountsOnce(s: State, random: nat -> real, now: int)
    requires Configured(s) && IsRandomSource(random)
    requires s.trial.Some? && s.lastNumbers != []
    ensures var t := Refresh(s, random, now);
      && t.trial.value.total == s.trial.value.total + 1
      && t.trial.value.correct == s.trial.value.correct + (if IsCorrect(s.answer, s) then 1 else 0)
      && t.trial.value.startTime == s.trial.value.startTime && t.trial.value.endTime == s.trial.value.endTime
  {
  }

  /**
   * A refresh with no trial running counts the same answer twice: once by
   * the refresh that startTrial performs, against the operands on display,
   * and once more against the operands that refresh has just drawn.
   */
  lemma {:induction false} AutoStartCountsTwice(s: State, random: nat -> real, now: int)
    requires Configured(s) && IsRandomSource(random)
    requires s.trial.None? && s.lastNumbers != []
    ensures var inner := StartTrial(s, random, now);
      var t := Refresh(s, random, now);
      && t.trial.value.total == 2
      && t.trial.value.correct == (if IsCorrect(s.answer, s) then 1 else 0) + (if IsCorrect(s.answer, inner) then 1 else 0)
  {
    var inner := StartTrial(s, random, now);
    assert Refresh(s, random, now) == Advance(inner, s.answer, random);
  }

  /**
   * The refresh at page load: the first trial starts at once and has already
   * counted one question, answered wrong (the answer box is empty), and a
   * question of two 2-digit addition operands is on display.
   */
  lemma {:induction false} LoadStartsTrial(random: nat -> real, now: int)
    requires IsRandomSource(random)
    ensures var s := Load(random, now);
      && s.trial == Some(Trial(now, now + 60000, 1, 0, 60))
      && s.mode == Addition && s.termCount == 2 && s.termLengths == [2, 2] && s.trialDuration == 60
      && Fits(s.lastNumbers, [2, 2])
      && s.question == Render(s.lastNumbers, Addition)
      && s.answer == None
  {
    InitialInv();
    var inner := StartTrial(Initial, random, now);
    assert Load(random, now) == Advance(inner, None, random);
    assert inner.trial.value == FreshTrial(60, now);
  }

  /**
   * A line that is one lower-case word naming a command, such as "start" or
   * "stop", reaches that command's handler with no arguments.
   */
  lemma ExecutePlainWord(s: State, word: string, random: nat -> real, now: int)
    requires Inv(s) && IsRandomSource(random)
    requires IsLowerWord(word) && Lookup(word).Some?
    ensures Execute(s, word, random, now) == Dispatch(Lookup(word).value, s, [], random, now)
  {
    ParsePlainWord(word);
  }

  /** Stopping a trial that has counted one wrong answer reports 0/1. */
  lemma StopAfterOneWrongAnswer(t: State)
    requires Inv(t) && t.trial.Some? && t.trial.value.total == 1 && t.trial.value.correct == 0
    ensures StopCommand(t).message == "trial stopped. 0/1 correct (0%)"
  {
    assert Accuracy(1, 0) == 0.0;
    OneWrongAnswerStopped();
  }

  /** `start` with the answer box empty and operands on display has counted one wrong answer. */
  lemma StartCountsOneWrongAnswer(s: State, random: nat -> real, now: int)
    requires Inv(s) && IsRandomSource(random)
    requires s.trial.None? && s.lastNumbers != [] && s.answer == None
    ensures var t := StartCommand(s, random, now).state;
      Inv(t) && t.trial == Some(Trial(now, now + s.trialDuration * 1000, 1, 0, s.trialDuration))
  {
    var t := StartTrial(s, random, now);
    assert StartCommand(s, random, now) == Outcome(t, TrialStartedMessage(s.trialDuration));
    assert !IsCorrect(None, s);
    assert t.trial.value == Count(FreshTrial(s.trialDuration, now), false);
    assert Count(FreshTrial(s.trialDuration, now), false) == Trial(now, now + s.trialDuration * 1000, 1, 0, s.trialDuration);
    assert Inv(t);
  }

  /**
   * `start` followed by `stop` with the answer box empty reports one question
   * already: `start` refreshes, and that refresh counts the question that was
   * on display.
   */
  lemma StartThenStop(s: State, random: nat -> real, now: int)
    requires Inv(s) && IsRandomSource(random)
    requires s.trial.None? && s.lastNumbers != [] && s.answer == None
    ensures StopCommand(StartCommand(s, random, now).state).message == "trial stopped. 0/1 correct (0%)"
  {
    StartCountsOneWrongAnswer(s, random, now);
    StopAfterOneWrongAnswer(StartCommand(s, random, now).state);
  }

  /**
   * Between events the question area can be read back into the operands the
   * next answer will be graded against: the numbers sit at the even tokens
   * and the mode's symbol at the odd ones.
   */
  lemma DisplayedQuestionDecodes(s: State)
    requires Inv(s) && s.lastNumbers != []
    ensures var toks := Split(s.question);
      && |toks| == 2 * |s.lastNumbers| - 1
      && (forall i :: 0 <= i < |s.lastNumbers| ==> ParseInt(toks[2 * i]) == Some(s.lastNumbers[i] as int))
  {
    QuestionTextDecodes(s.lastNumbers, s.mode);
  }
}

=== FILE: suggestions.dfy ===
/**
 * getSuggestions: the completions offered while a command is typed.  Registry
 * keys that start with the input come first, then "cmd arg" completions for
 * a command with a closed argument list, and at most five are shown.
 */
module Suggestions {
  import opened JsText
  import opened Optional
  import opened Commands

  /** The most completions shown at once. */
  const Limit := 5

  /** a is b with some entries left out, the rest kept in order. */
  ghost predicate IsSubsequence<T>(a: seq<T>, b: seq<T>) {
    if a == [] then true
    else if b == [] then false
    else (a[0] == b[0] && IsSubsequence(a[1..], b[1..])) || IsSubsequence(a, b[1..])
  }

  /** The words of `words` that start with `prefix`, in their order. */
  function StartingWith(words: seq<string>, prefix: string): (r: seq<string>)
    ensures forall w :: w in r <==> w in words && prefix <= w
    ensures |r| <= |words|
  {
    if words == [] then []
    else if prefix <= words[0] then [words[0]] + StartingWith(words[1..], prefix)
    else StartingWith(words[1..], prefix)
  }

  lemma {:induction false} StartingWithKeepsOrder(words: seq<string>, prefix: string)
    ensures IsSubsequence(StartingWith(words, prefix), words)
  {
    if words != [] {
      StartingWithKeepsOrder(words[1..], prefix);
      var r := StartingWith(words, prefix);
      if prefix <= words[0] {
        assert r[0] == words[0] && r[1..] == StartingWith(words[1..], prefix);
      } else if r != [] {
        assert r == StartingWith(words[1..], prefix);
      }
    }
  }

  /** The registry keys completed by the lower-cased input. */
  function KeyMatches(inputLower: string): seq<string> {
    StartingWith(Names, inputLower)
  }

  /**
   * The "cmd arg" completions: when the input has a second space-separated
   * piece and its first piece names a command with validArgs, those
   * arguments that start with the second piece, lower-cased.
   */
  function ArgMatches(input: string): (r: seq<string>)
    ensures |r| <= |OperatorNames|
  {
    var parts := Split(input);
    if |parts| <= 1 then []
    else
      var name := ToLower(parts[0]);
      match Lookup(name)
      case None => []
      case Some(c) =>
        match ValidArgs(c)
        case None => []
        case Some(valid) => Prefixed(name + " ", StartingWith(valid, ToLower(parts[1])))
  }

  /** Every word with `head` in front of it. */
  function Prefixed(head: string, words: seq<string>): (r: seq<string>)
    ensures |r| == |words| && forall i :: 0 <= i < |words| ==> r[i] == head + words[i]
  {
    seq(|words|, i requires 0 <= i < |words| => head + words[i])
  }

  /** The first Limit entries of a list, or all of them when it is shorter. */
  function Truncate(all: seq<string>): (r: seq<string>)
    ensures |r| == if |all| <= Limit then |all| else Limit
    ensures r == all[..|r|]
  {
    if |all| <= Limit then all else all[..Limit]
  }

  function GetSuggestions(input: string): (r: seq<string>)
    ensures |r| <= Limit
    ensures Trim(input) == "" ==> r == []
  {
    if Trim(input) == "" then []
    else Truncate(KeyMatches(ToLower(input)) + ArgMatches(input))
  }

  /** Cutting keys + args to Limit keeps the keys first and the arguments after them. */
  lemma TruncatedConcat(keys: seq<string>, args: seq<string>)
    ensures var r := Truncate(keys + args);
      && (|keys| <= Limit ==> r[..|keys|] == keys)
      && (|keys| > Limit ==> r == keys[..Limit])
      && forall i :: |keys| <= i < |r| ==> r[i] == args[i - |keys|]
  {
    var r := Truncate(keys + args);
    if |keys| <= Limit {
      assert r[..|keys|] == (keys + args)[..|keys|];
    }
  }

  /**
   * Unless the input is blank, the list starts with the registry keys that
   * the lower-cased input begins, in registry order, as many as fit.
   */
  lemma KeysComeFirst(input: string)
    requires Trim(input) != ""
    ensures var r := GetSuggestions(input);
      var keys := KeyMatches(ToLower(input));
      && (forall k :: k in keys <==> k in Names && ToLower(input) <= k)
      && IsSubsequence(keys, Names)
      && (|keys| <= Limit ==> r[..|keys|] == keys)
      && (|keys| > Limit ==> r == keys[..Limit])
  {
    var keys := KeyMatches(ToLower(input));
    var args := ArgMatches(input);
    assert GetSuggestions(input) == Truncate(keys + args);
    TruncatedConcat(keys, args);
    StartingWithKeepsOrder(Names, ToLower(input));
  }

  /**
   * The argument completions exist only for `op`, and for `op` they are
   * exactly "op " followed by each operator name that starts with the second
   * piece of the input, lower-cased, in declaration order.
   */
  lemma {:induction false} ArgMatchesOnlyForOp(input: string)
    ensures var args := ArgMatches(input);
      args != [] ==>
        var parts := Split(input);
        var chosen := StartingWith(OperatorNames, ToLower(parts[1]));
        && |parts| >= 2 && ToLower(parts[0]) == "op"
        && args == Prefixed("op ", chosen)
        && (forall w :: w in chosen <==> w in OperatorNames && ToLower(parts[1]) <= w)
        && IsSubsequence(chosen, OperatorNames)
    ensures var parts := Split(input);
      |parts| >= 2 && ToLower(parts[0]) == "op" ==>
        ArgMatches(input) == Prefixed("op ", StartingWith(OperatorNames, ToLower(parts[1])))
  {
    var parts := Split(input);
    if |parts| > 1 {
      StartingWithKeepsOrder(OperatorNames, ToLower(parts[1]));
      var name := ToLower(parts[0]);
      match Lookup(name)
      case None =>
      case Some(c) =>
        if c == Op {
          assert name == Name(Op) == "op";
          assert name + " " == "op ";
          assert ArgMatches(input) == Prefixed(name + " ", StartingWith(OperatorNames, ToLower(parts[1])));
        } else {
          assert ValidArgs(c).None?;
        }
    }
  }

  /** After the keys, the remaining places go to the argument completions, in order. */
  lemma ArgumentsComeAfter(input: string)
    requires Trim(input) != ""
    ensures var r := GetSuggestions(input);
      var keys := KeyMatches(ToLower(input));
      var args := ArgMatches(input);
      && |r| == (if |keys| + |args| <= Limit then |keys| + |args| else Limit)
      && forall i :: |keys| <= i < |r| ==> r[i] == args[i - |keys|]
  {
    var keys := KeyMatches(ToLower(input));
    var args := ArgMatches(input);
    assert GetSuggestions(input) == Truncate(keys + args);
    TruncatedConcat(keys, args);
  }

  /** "s" completes exactly the two registry keys that begin with it. */
  lemma KeysForS()
    ensures KeyMatches("s") == ["start", "stop"]
  {
    var p := "s";
    assert p[0] == 's';
    assert "op"[0] == 'o' && "tl"[0] == 't' && "tc"[0] == 't' && "cd"[0] == 'c' && "help"[0] == 'h';
    assert !(p <= "op") && !(p <= "tl") && !(p <= "tc") && !(p <= "cd") && !(p <= "help");
    assert "start"[..1] == p && "stop"[..1] == p;
    assert p <= "start" && p <= "stop";
    assert Names == ["op", "tl", "tc", "cd", "start", "stop", "help"];
    assert StartingWith(["help"], p) == [];
    assert StartingWith(["stop", "help"], p) == ["stop"];
    assert StartingWith(["start", "stop", "help"], p) == ["start", "stop"];
  }

  /** A single lower-case word is completed by the registry keys alone. */
  lemma SuggestionsForWord(word: string)
    requires Trim(word) == word != "" && ' ' !in word && ToLower(word) == word
    ensures GetSuggestions(word) == Truncate(KeyMatches(word))
  {
    SplitWithoutSpace(word);
    assert ArgMatches(word) == [];
    assert KeyMatches(word) + [] == KeyMatches(word);
  }

  /** Typing "s" offers the two commands that begin with it. */
  lemma StartAndStopForS()
    ensures GetSuggestions("s") == ["start", "stop"]
  {
    SIsPlainWord();
    SuggestionsForWord("s");
    KeysForS();
  }

  lemma SIsPlainWord()
    ensures Trim("s") == "s" != "" && ' ' !in "s" && ToLower("s") == "s"
  {
  }

  /** "op d" completes no command name ... */
  lemma NoKeyStartsWithOpD()
    ensures KeyMatches("op d") == []
  {
    var p := "op d";
    assert !(p <= "op") by { assert |p| > |"op"|; }
    assert p[0] == 'o';
    assert !(p <= "tl") && !(p <= "tc") && !(p <= "cd");
    assert !(p <= "start") && !(p <= "stop") && !(p <= "help");
    assert Names == ["op", "tl", "tc", "cd", "start", "stop", "help"];
  }

  lemma OpDSplits()
    ensures Split("op d") == ["op", "d"]
  {
    SplitWithoutSpace("op");
    SplitWithoutSpace("d");
    SplitAtSpace("op", "d");
    assert "op d" == "op" + " " + "d";
  }

  /** Of the operator names only "division" begins with "d". */
  lemma DivisionForD()
    ensures StartingWith(OperatorNames, "d") == ["division"]
  {
    var p := "d";
    assert p[0] == 'd';
    assert "addition"[0] == 'a' && "subtraction"[0] == 's' && "multiplication"[0] == 'm';
    assert !(p <= "addition") && !(p <= "subtraction") && !(p <= "multiplication");
    assert "division"[..1] == p;
    assert OperatorNames == ["addition", "subtraction", "multiplication", "division"];
    assert StartingWith(["division"], p) == ["division"];
  }

  /** ... and one argument: division. */
  lemma OpDArguments()
    ensures ArgMatches("op d") == ["op division"]
  {
    OpDSplits();
    assert ToLower("op") == "op" && ToLower("d") == "d";
    assert Lookup("op") == Some(Op);
    DivisionForD();
    assert "op" + " " == "op ";
    assert "op " + "division" == "op division";
    assert Prefixed("op ", ["division"]) == ["op division"];
  }
}
